=== FILE: README.md ===
# SimpleDB heap-file storage core, modelled in Dafny

This project models the storage core of SimpleDB, a teaching relational database.
It covers five pieces of its logic:

- **Heap file** (`HeapFile`). A table's file holds fixed-size pages, and page `n` starts at byte `pageSize × n`. The model covers reading and writing one page, the page count, first-fit tuple insertion that appends one empty page when every page is full, and tuple deletion that first checks the tuple belongs to this table.
- **Cross-page cursor** (`HeapDbFileIterator`). It walks every page of a file through the buffer pool and yields each page's tuples in turn. It skips empty pages and fetches every page read-only.
- **Integer aggregation** (`IntegerAggregator`). An insertion-ordered map from group key to accumulator, with MIN, MAX, SUM, AVG and COUNT. AVG is the mean taken in exact arithmetic and truncated toward zero, so it ignores float rounding. Without grouping it uses a single sentinel key.
- **Insert operator** (`Insert`). A run-once operator. It drains its child into a table and returns one tuple holding the count; every later call returns nothing.
- **Empty group-key sentinel** (`EmptyField`). A field that supports only equality and hashing.

The buffer pool is not modelled. Its `getPage` is a lookup into the file's sequence of pages, and a page number at or past the end is the fetch failure. Whole-file logic works on that page sequence. Byte-level addressing (`readPage`, `writePage`, `numPages`) works on a `seq<bv8>` file image.

Files, one module each:

| file | module | models |
|---|---|---|
| wrappers.dfy | Wrappers | `Option` (Java `null`) and `Result` (exceptions) |
| ints.dfy | Ints | `Min` and `Max`, shared by the page layout and the aggregate accumulators |
| fields.dfy | Fields | field values, `EmptyField` |
| storage.dfy | Storage | page ids, record ids, tuples, permissions, storage errors |
| file_layout.dfy | FileLayout | page offsets, `readPage`, `writePage`, `numPages` on bytes |
| heap_page.dfy | HeapPages | the slot view of a page that the heap file relies on |
| heap_file.dfy | HeapFiles | `getPage` lookup, `insertTuple`, `deleteTuple` |
| heap_file_iterator.dfy | FileIterators | `HeapDbFileIterator` |
| agg_result.dfy | AggResults | the exact `AggResult` accumulator |
| float_agg_result.dfy | FloatAggResults | `AggResult` with its float result, as written |
| integer_aggregator.dfy | IntegerAggregation | `IntegerAggregator`: groups, tuple merging, results |
| insert.dfy | InsertOperator | `Insert` |

## Model

| member | source | states |
|---|---|---|
| Fields.FieldEqualsIsValueEquality | src/java/simpledb/storage/EmptyField.java:31-33 | Field equality is value equality. A sentinel equals exactly the other sentinels, and it never equals a field of another kind. |
| Fields.HashCode | src/java/simpledb/storage/EmptyField.java:26-28 | The sentinel always hashes to 1. Other kinds use their own hash. |
| Fields.HashConsistentWithEquals | src/java/simpledb/storage/EmptyField.java:26-33 | Equal fields have equal hashes, so the sentinel is a sound map key. |
| Fields.GetType | src/java/simpledb/storage/EmptyField.java:21-23 | `getType` fails exactly on the sentinel. Any other field reports its own kind. |
| Fields.Serialize | src/java/simpledb/storage/EmptyField.java:11-13 | Serialisation fails exactly on the sentinel. Any other field writes its own encoding. |
| Fields.Compare | src/java/simpledb/storage/EmptyField.java:16-18 | Comparison fails exactly when the receiver is the sentinel. |
| Fields.EmptyFieldOnlyEquality | src/java/simpledb/storage/EmptyField.java:9-34 | The sentinel supports equality and hashing only. Any two sentinels are equal, a sentinel equals no other kind, its hash is 1, and serialize, compare and getType all fail on it. |
| FileLayout.NumPages | src/java/simpledb/storage/HeapFile.java:117-120 | The page count is the ceiling of length over page size: `n` pages cover the file and `n − 1` do not. |
| FileLayout.NumPagesUnique | src/java/simpledb/storage/HeapFile.java:119 | Those two bounds determine the page count uniquely. |
| FileLayout.NumPagesShape | src/java/simpledb/storage/HeapFile.java:119 | An empty file has 0 pages, `k` whole pages count as `k`, and a partial tail adds exactly one page. |
| FileLayout.ReadPage | src/java/simpledb/storage/HeapFile.java:84-100 | A read returns the bytes at offset `pageSize × pgNo`, `min(fileLength − offset, pageSize)` of them. It fails exactly when the offset is past the end. |
| FileLayout.OnlyLastPageShort | src/java/simpledb/storage/HeapFile.java:90-95 | Any page that has another page after it is read as a whole page. |
| FileLayout.LastPageSize | src/java/simpledb/storage/HeapFile.java:90-95 | The last page is read as the non-empty remainder after the full pages. |
| FileLayout.WritePage | src/java/simpledb/storage/HeapFile.java:103-112 | A write puts the image at `pageSize × pgNo` and keeps every byte outside `[offset, offset+len)`. The file grows only to the end of the write. |
| FileLayout.WriteThenReadSamePage | src/java/simpledb/storage/HeapFile.java:84-112 | Reads and writes use the same offset, so a whole page written and then read back is unchanged. |
| FileLayout.WriteKeepsOtherPages | src/java/simpledb/storage/HeapFile.java:109-111 | Writing one page leaves every other complete page reading as before. |
| FileLayout.AppendPageAddsOne | src/java/simpledb/storage/HeapFile.java:134-138 | Writing a whole page at the first missing page number of an aligned file adds exactly one page. |
| HeapPages.InsertIntoPage | src/java/simpledb/storage/HeapFile.java:141 | A page insert fails exactly when the schema differs or the page is full. Otherwise one free slot takes the tuple, with its record id set, and the free count drops by one. |
| HeapPages.DeleteFromPage | src/java/simpledb/storage/HeapFile.java:157 | A page delete succeeds exactly when the tuple's record id names an occupied slot of this page. That slot becomes free and the free count rises by one. |
| HeapFiles.NumPages | src/java/simpledb/storage/HeapFile.java:117-120 | The page count of the page-sequence model is the length of that sequence. How it follows from the byte length is `FileLayout.NumPages`. `GetPage` succeeds exactly below it, and `InsertTuple` grows it by one exactly when it appends. |
| HeapFiles.GetPage | src/java/simpledb/storage/HeapFile.java:128-138 | A fetch succeeds exactly for page numbers below `numPages` and returns that page. |
| HeapFiles.InsertTuple | src/java/simpledb/storage/HeapFile.java:123-143 | The chosen page is the first page with a free slot, and every earlier page is full. If no page has room, an empty page is appended, so `numPages` grows by exactly one; otherwise it is unchanged. Pages are requested in order with READ_WRITE. On success only the chosen page changes and the occupied total grows by one. Failure happens exactly on a schema mismatch or a zero-slot page. |
| HeapFiles.Grow | src/java/simpledb/storage/HeapFile.java:134-138 | At the first page number past the end, one empty page is appended. Otherwise the file is unchanged. Either way the chosen page exists afterwards and the occupied total is kept. |
| HeapFiles.PlaceAt | src/java/simpledb/storage/HeapFile.java:134-142 | Placing into the first-fit page fails exactly on a schema mismatch or a zero-slot page. On success only that page changes and the occupied total grows by one. |
| HeapFiles.FirstFitUnique | src/java/simpledb/storage/HeapFile.java:127-133 | Only one page number satisfies the first-fit condition. |
| HeapFiles.DeleteTuple | src/java/simpledb/storage/HeapFile.java:146-160 | A record id from another table fails with `TableIdMismatch` before any page is fetched. Otherwise exactly the owning page is requested with READ_WRITE. On success only the tuple's slot is freed, every other page is unchanged and the occupied total drops by one. |
| FileIterators.Init | src/java/simpledb/storage/HeapDbFileIterator.java:16-23 | A fresh cursor is on page 0 with no page iterator and has fetched nothing. |
| FileIterators.Load | src/java/simpledb/storage/HeapDbFileIterator.java:30-32 | Loading a page records one READ_ONLY request for that page of the cursor's table. The cursor then has that page and every later page still to yield. |
| FileIterators.Open | src/java/simpledb/storage/HeapDbFileIterator.java:26-33 | `open` keeps `pageCur`. It reloads the current page from its start if that page exists; otherwise it changes nothing. |
| FileIterators.HasNext | src/java/simpledb/storage/HeapDbFileIterator.java:36-53 | `hasNext` is true iff some tuple remains at or after the cursor, so it skips any run of empty pages. It consumes nothing, and when false the page iterator is null. |
| FileIterators.Next | src/java/simpledb/storage/HeapDbFileIterator.java:56-73 | `next` succeeds iff a tuple remains. It returns the first remaining tuple and removes only that one. Otherwise it throws no-such-element and leaves the page iterator null. |
| FileIterators.Rewind | src/java/simpledb/storage/HeapDbFileIterator.java:76-81 | `rewind` moves to page 0 and refetches it, after which every tuple of the file remains. It fails exactly when the file has no pages. |
| FileIterators.RewindReopen | src/java/simpledb/storage/HeapDbFileIterator.java:76-81 | The corrected rewind (close, then open from page 0) never fails and leaves every tuple of the file to yield. |
| FileIterators.RewindFailsOnEmptyFile | src/java/simpledb/storage/HeapDbFileIterator.java:76-81 | On a zero-page file `rewind` as written fails, while close-then-open yields an empty iterator. |
| FileIterators.Close | src/java/simpledb/storage/HeapDbFileIterator.java:84-86 | `close` drops the page iterator and keeps `pageCur`. |
| FileIterators.OpenFresh | src/java/simpledb/storage/HeapDbFileIterator.java:26-33 | A fresh cursor, once opened, has every tuple of the file to yield. On a zero-page file it has no page iterator, so `hasNext` is false and `next` throws. All its fetches are READ_ONLY. |
| FileIterators.ExhaustedStaysExhausted | src/java/simpledb/storage/HeapDbFileIterator.java:36-73 | With a null page iterator, `hasNext` stays false and `next` keeps throwing; neither changes the state. |
| FileIterators.CloseEnds | src/java/simpledb/storage/HeapDbFileIterator.java:84-86 | After `close`, `hasNext` is false. |
| FileIterators.ReopenRestartsPage | src/java/simpledb/storage/HeapDbFileIterator.java:26-33 | Calling `open` part-way through a page restarts that page, so its already-yielded tuples come again. |
| FileIterators.Drain | src/java/simpledb/storage/HeapDbFileIterator.java:36-73 | Calling `hasNext`/`next` until `hasNext` is false yields exactly the remaining tuples, in order, each once. |
| FileIterators.Step | src/java/simpledb/storage/HeapDbFileIterator.java:36-73 | While a tuple remains, `next` then `hasNext` yields the first remaining tuple and leaves exactly the rest. The answer is true iff something is still left. |
| FileIterators.ScanTwice | src/java/simpledb/storage/HeapDbFileIterator.java:26-73 | A full pass yields the concatenation of the pages' tuples in page order. After a close-then-open from page 0, a second pass yields the same sequence. |
| FileIterators.ScanRewound | src/java/simpledb/storage/HeapDbFileIterator.java:26-81 | A full pass, then the source's `rewind`, then a second pass. The rewind fails exactly on a file with no pages; otherwise the second pass repeats the first. |
| FileIterators.Contents | src/java/simpledb/storage/HeapFile.java:163-166 | The cursor over a heap file sees one tuple sequence per page: that page's occupied tuples in slot order. |
| FileIterators.ConcatLength | src/java/simpledb/storage/HeapFile.java:163-166 | A full pass over a heap file yields as many tuples as its pages hold. |
| AggResults.Merge | src/java/simpledb/execution/IntegerAggregator.java:98-119 | Every merge counts one value, whatever the operator. |
| AggResults.IntResult | src/java/simpledb/execution/IntegerAggregator.java:121-126 | `intResult`: the count for COUNT, otherwise the aggregate. The lemmas below pin it down: `CountIsNumberMerged` gives the number merged, `MinIsLeast` the least value, `MaxIsGreatest` the greatest, `SumIsTotal` the sum and `AvgIsMean` the truncated mean. |
| AggResults.CountIsNumberMerged | src/java/simpledb/execution/IntegerAggregator.java:98-124 | After merging `vs`, the count is `\|vs\|` and COUNT reports it. |
| AggResults.MinIsLeast | src/java/simpledb/execution/IntegerAggregator.java:99-107 | MIN reports one of the merged values, and no merged value is smaller. It is exact iff every value is float-exact. |
| AggResults.MaxIsGreatest | src/java/simpledb/execution/IntegerAggregator.java:99-110 | MAX reports one of the merged values, and no merged value is larger. It is exact iff every value is float-exact. |
| AggResults.AvgIsMean | src/java/simpledb/execution/IntegerAggregator.java:98-126 | AVG reports the sum of the merged values divided by their number, truncated toward zero, and 0 when nothing was merged. This is what the running mean `((result × count) + v) / (count + 1)` followed by `(int)` gives in exact arithmetic. It is exact only for a single float-exact value. |
| AggResults.SumIsTotal | src/java/simpledb/execution/IntegerAggregator.java:111-113 | SUM reports the sum of the merged values. It is exact iff every value and every partial sum is within ±2^24. |
| FloatAggResults.FloatRound | src/java/simpledb/execution/IntegerAggregator.java:100 | Storing an `int` of magnitude at most 2^24 in the `float` accumulator keeps it unchanged. |
| FloatAggResults.IntResultAsWritten | src/java/simpledb/execution/IntegerAggregator.java:121-126 | `intResult` as written: the count for COUNT, otherwise the float result through the saturating `(int)` cast. `AgreesWhileExact` ties it to `AggResults.IntResult` while the exactness flag holds. `MinRoundsLargeValue` and `MinOfIntMaxSaturates` show it at 2^24+1 and at `Integer.MAX_VALUE`. |
| FloatAggResults.IntCast | src/java/simpledb/execution/IntegerAggregator.java:125 | The `(int)` cast of an integer-valued float: unchanged inside the `int` range, saturated at `Integer.MAX_VALUE` above it and at `Integer.MIN_VALUE` below it. |
| FloatAggResults.MergeAsWritten | src/java/simpledb/execution/IntegerAggregator.java:98-119 | The float accumulator as written also counts one value per merge. |
| FloatAggResults.AgreesWhileExact | src/java/simpledb/execution/IntegerAggregator.java:98-126 | While the exactness flag holds, the exact accumulator and the source's float accumulator report the same count and result. That result is within ±2^24, so the cast leaves it unchanged. |
| FloatAggResults.MinOfIntMaxSaturates | src/java/simpledb/execution/IntegerAggregator.java:100-125 | As written, `Integer.MAX_VALUE` is stored as the float 2^31, and `intResult` saturates it back to `Integer.MAX_VALUE`. |
| FloatAggResults.MinRoundsLargeValue | src/java/simpledb/execution/IntegerAggregator.java:98-126 | As written, MIN of the single value 2^24+1 reports 2^24. The exact accumulator reports 2^24+1. |
| IntegerAggregation.MergeIntoGroup | src/java/simpledb/execution/IntegerAggregator.java:62 | A merge updates only its own key's accumulator, creating it on first sight. A new key is appended at the end and an existing key keeps its place; every other group is unchanged. |
| IntegerAggregation.MergeItems | src/java/simpledb/execution/IntegerAggregator.java:62 | Merging any items keeps the keys distinct and exactly the map's keys. |
| IntegerAggregation.GroupKeysOfItems | src/java/simpledb/execution/IntegerAggregator.java:62 | There is one group per distinct key among the merged items. |
| IntegerAggregation.GroupKeyOfItems | src/java/simpledb/execution/IntegerAggregator.java:62 | A key has a group iff some merged item carries it. |
| IntegerAggregation.GroupAccsOfItems | src/java/simpledb/execution/IntegerAggregator.java:62 | Each group's accumulator is the merge of exactly its own key's values, in order. |
| IntegerAggregation.GroupAccOfKey | src/java/simpledb/execution/IntegerAggregator.java:62 | The accumulator for any key is the merge of that key's values in order. A key never seen has a fresh accumulator. |
| IntegerAggregation.GroupOrderOfItems | src/java/simpledb/execution/IntegerAggregator.java:22 | Group keys are in order of first appearance, as the `LinkedHashMap` keeps them. |
| IntegerAggregation.KeyOrderOfItems | src/java/simpledb/execution/IntegerAggregator.java:22 | Of any two group keys, the one listed first appears first among the merged items. |
| IntegerAggregation.NewAggregator | src/java/simpledb/execution/IntegerAggregator.java:35-45 | A new aggregator has no groups and satisfies the invariant. |
| IntegerAggregation.ResultSchema | src/java/simpledb/execution/IntegerAggregator.java:40-44 | The output schema is `(gbType, INT)` with grouping and `(INT)` without. |
| IntegerAggregation.GetField | src/java/simpledb/execution/IntegerAggregator.java:57-61 | Reading a tuple field succeeds exactly for an index inside the tuple. |
| IntegerAggregation.GroupKey | src/java/simpledb/execution/IntegerAggregator.java:55-60 | Without grouping the key is always the sentinel. With grouping it is the group-by field. |
| IntegerAggregation.AggValue | src/java/simpledb/execution/IntegerAggregator.java:61 | The aggregate value exists exactly when the aggregate field exists and is an integer field. |
| IntegerAggregation.MergeTuple | src/java/simpledb/execution/IntegerAggregator.java:53-63 | A tuple merge fails exactly when its key or integer value is missing. Otherwise it merges into that key's group only and keeps the invariant, so without grouping the keys are at most the one sentinel. |
| IntegerAggregation.MergeTuples | src/java/simpledb/execution/IntegerAggregator.java:53-63 | Merging tuples in order keeps the invariant and the aggregator's configuration. |
| IntegerAggregation.MergeTuplesSucceeds | src/java/simpledb/execution/IntegerAggregator.java:53-63 | Merging a run of tuples fails iff some tuple lacks a key or an integer value. |
| IntegerAggregation.Items | src/java/simpledb/execution/IntegerAggregator.java:55-61 | Each mergeable tuple contributes exactly its group key and its integer aggregate value, in tuple order. |
| IntegerAggregation.MergeTuplesGroups | src/java/simpledb/execution/IntegerAggregator.java:53-63 | Merging tuples into a new aggregator gives exactly the groups of their `(key, value)` items. |
| IntegerAggregation.ResultTuple | src/java/simpledb/execution/IntegerAggregator.java:77-83 | A result tuple has the output schema. Its last field is the group's integer result, preceded by the key when grouping. |
| IntegerAggregation.Results | src/java/simpledb/execution/IntegerAggregator.java:73-87 | The iterator yields one result tuple per group, in key order. |
| IntegerAggregation.ResultsCardinality | src/java/simpledb/execution/IntegerAggregator.java:73-87 | Without grouping the iterator yields at most one tuple; with no merges it yields none. |
| IntegerAggregation.AggregateTuples | src/java/simpledb/execution/IntegerAggregator.java:73-87 | Aggregating tuples gives one result per distinct key, in order of first appearance. Each result is the aggregate of that key's values alone. |
| IntegerAggregation.CountPerGroup | src/java/simpledb/execution/IntegerAggregator.java:121-124 | COUNT reports, per group, the number of tuples with that key. |
| InsertOperator.NewInsert | src/java/simpledb/execution/Insert.java:39-45 | A new Insert has not run and its child has yielded nothing. |
| InsertOperator.GetTupleDesc | src/java/simpledb/execution/Insert.java:47-50 | The result schema is a single INT field. |
| InsertOperator.CountTuple | src/java/simpledb/execution/Insert.java:97-98 | The result tuple has the INT schema, and its one field is the count. |
| InsertOperator.InsertAllPrefixFails | src/java/simpledb/execution/Insert.java:88-96 | Once an insert fails, the whole run fails with that error. |
| InsertOperator.OpErrorOf | src/java/simpledb/execution/Insert.java:90-94 | An insert's `IOException` (and its `DbException`) surfaces as a `DbException`. A transaction abort surfaces unchanged, and it is the only error that does. |
| InsertOperator.FetchNext | src/java/simpledb/execution/Insert.java:82-101 | If already run, it returns null without touching the child or the table. Otherwise it inserts each remaining child tuple once, in child order, with its tid and table id. On success it marks itself run and returns the count. If an insert throws, the error surfaces (I/O failure as `DbException`) and it stays not run. The database is then the state the failing insert left, which need not be the state before it: a heap file may already have appended an empty page. |
| InsertOperator.Rewind | src/java/simpledb/execution/Insert.java:64-67 | `rewind` rewinds only the child and keeps the executed flag. |
| InsertOperator.RunRewindRun | src/java/simpledb/execution/Insert.java:84-86 | After a successful run and a rewind, the next call returns null and inserts nothing. |

## Left out

- The buffer pool and the catalog (`Database`, `BufferPool`) are not part of this model. There is no locking, eviction, dirty-page tracking or transaction abort from contention. `getPage` is a pure lookup, and a page number at or past `numPages` is taken to be the fetch failure. That is an assumption about `BufferPool.getPage` and the `HeapPage` constructor, which fail on a page past the end; neither is modelled.
- `HeapPage.java` is not part of this model. A page is a sequence of slots, each free or holding a tuple; there is no bitmap or byte codec. The page insert takes the lowest free slot and checks the schema, as the heap file expects of it.
- `RandomAccessFile` I/O and its `IOException`s are not modelled. The file is a byte sequence, and seeking past the end fills the gap with zero bytes, because the platform leaves those bytes unspecified.
- `numPages` uses integer ceiling division instead of `Math.ceil` on a `double`. Java `int` overflow of `pageSize × pgNo`, and the `(int)` cast of lengths beyond 2^31, are not modelled: integers are unbounded.
- `getId` hashes the absolute path. The model keeps the id as an opaque integer.
- HeapFiles.InsertTuple: the model appends the empty page when the fetched page number is `numPages`. A short, partial tail page that the page parser rejects is not modelled.
- AggResults.Merge: the accumulator is an exact integer. The `exact` flag marks where it matches the source's `float`. For AVG it keeps the exact total and reports the truncated exact mean. The source's running float quotient can round differently, so AVG clears the flag after the second value. The exact model does not apply the `(int)` cast's saturation: a SUM beyond the `int` range is reported unbounded. `FloatAggResults.IntCast` models the saturation.
- FloatAggResults.MergeAsWritten: AVG is excluded, because float division is not modelled.
- The count held by `AggResult` and by `Insert.fetchNext` is an unbounded integer, so 32-bit wrap-around after 2^31 tuples is not modelled.
- The `IntField` and `StringField` classes are not part of this model. Their encoding, comparison and hash are function parameters.
- The insert operator's child is a fixed tuple sequence, so failures inside the child operator are not modelled. `open`/`close` and the `Operator` base plumbing (`hasNext`/`next` wrapping `fetchNext`, `getChildren`, `setChildren`) are left out, and so are the `volatile` flag and threading.
- The direct-file iterator variant and the aggregator's `TupleIterator` wrapper are not modelled. The iterator result is a plain sequence.

## Findings

| source | as written | input that shows it | evidently intended | confidence | as-written member | corrected member |
|---|---|---|---|---|---|---|
| src/java/simpledb/execution/IntegerAggregator.java:98-126 | MIN, MAX and SUM keep an integer aggregate in a 32-bit `float`, which rounds integers above 2^24 | one tuple with aggregate value 16777217 under MIN: the result is 16777216 | the aggregate of integer fields is the exact integer | medium, not executed | FloatAggResults.MinRoundsLargeValue | AggResults.MinIsLeast |
| src/java/simpledb/storage/HeapDbFileIterator.java:76-81 | `rewind` fetches page 0 unconditionally | a file with no pages: `rewind` fails, though `open` on the same file gives an empty iterator | rewind is close then open from page 0, giving an empty iterator | medium, not executed | FileIterators.RewindFailsOnEmptyFile | FileIterators.RewindReopen |

=== FILE: agg_result.dfy ===
/**
 * The running accumulator of one group (IntegerAggregator.AggResult).
 *
 * The source keeps the running result in a 32-bit float. The model keeps it as an
 * exact integer together with a flag that stays true only while every value stored
 * in that float is an integer of magnitude at most 2^24, the range in which a float
 * holds integers exactly. While the flag holds, the model's result is the source's
 * result; `FloatAggResults` relates the two.
 *
 * For AVG the source's running float is `((result * count) + v) / (count + 1)`, which
 * in exact arithmetic is always the mean of the values merged so far. The model keeps
 * their total instead and takes the mean, truncated as Java's `(int)` cast truncates,
 * when the result is read.
 */
module AggResults {
  import Ints

  /** The aggregate operators an integer aggregate computes. */
  datatype AggOp = Min | Max | Sum | Avg | Count

  /** 2^24: every integer of at most this magnitude is exactly a float. */
  const FloatExactLimit: int := 16777216

  predicate FloatExact(x: int) {
    -FloatExactLimit <= x <= FloatExactLimit
  }

  /**
   * An accumulator: values merged so far, the running result (for AVG, the running
   * total), and whether it is exact.
   */
  datatype Acc = Acc(count: nat, result: int, exact: bool)

  /** A new accumulator: nothing merged, result 0. */
  const Fresh: Acc := Acc(0, 0, true)


  /** Integer division truncating toward zero, as Java's conversion of a quotient to int does. */
  function TruncDiv(a: int, b: int): int
    requires b > 0
  {
    if a >= 0 then a / b else -((-a) / b)
  }

  /**
   * `AggResult.merge`: the first value initialises the result; after that MIN and
   * MAX keep the smaller and larger, SUM and AVG add (AVG's float quotient may round,
   * so it clears the flag), and COUNT leaves the result alone. Every merge counts.
   */
  function Merge(op: AggOp, a: Acc, v: int): (r: Acc)
    ensures r.count == a.count + 1
  {
    if a.count == 0 then Acc(1, v, a.exact && FloatExact(v))
    else
      match op
      case Min => Acc(a.count + 1, Ints.Min(a.result, v), a.exact && FloatExact(v))
      case Max => Acc(a.count + 1, Ints.Max(a.result, v), a.exact && FloatExact(v))
      case Sum => Acc(a.count + 1, a.result + v, a.exact && FloatExact(v) && FloatExact(a.result + v))
      case Avg => Acc(a.count + 1, a.result + v, false)
      case Count => Acc(a.count + 1, a.result, a.exact)
  }

  /** `AggResult.intResult`: the count for COUNT, the mean for AVG, the result otherwise. */
  function IntResult(op: AggOp, a: Acc): int {
    if op == Count then a.count
    else if op == Avg && a.count > 0 then TruncDiv(a.result, a.count)
    else a.result
  }

  /** The accumulator after merging `vs` in order into a fresh one. */
  function MergeValues(op: AggOp, vs: seq<int>): Acc
  {
    if |vs| == 0 then Fresh else Merge(op, MergeValues(op, vs[..|vs| - 1]), vs[|vs| - 1])
  }

  /** The sum of a sequence of integers (the reference for SUM). */
  function SeqSum(vs: seq<int>): int
  {
    if |vs| == 0 then 0 else SeqSum(vs[..|vs| - 1]) + vs[|vs| - 1]
  }

  /** Every operator counts the values merged; COUNT reports that number. */
  lemma {:induction false} CountIsNumberMerged(op: AggOp, vs: seq<int>)
    ensures MergeValues(op, vs).count == |vs|
    ensures IntResult(Count, MergeValues(Count, vs)) == |vs|
    decreases |vs|
  {
    if |vs| > 0 {
      CountIsNumberMerged(op, vs[..|vs| - 1]);
      CountIsNumberMerged(Count, vs[..|vs| - 1]);
    }
  }

  /** MIN reports a merged value no greater than any other; exact iff every value is in float range. */
  lemma {:induction false} MinIsLeast(vs: seq<int>)
    requires |vs| > 0
    ensures IntResult(Min, MergeValues(Min, vs)) in vs
    ensures forall i :: 0 <= i < |vs| ==> IntResult(Min, MergeValues(Min, vs)) <= vs[i]
    ensures MergeValues(Min, vs).exact <==> forall i :: 0 <= i < |vs| ==> FloatExact(vs[i])
  {
    var init := vs[..|vs| - 1];
    if |init| > 0 {
      MinIsLeast(init);
      assert forall i :: 0 <= i < |init| ==> vs[i] == init[i];
    }
  }

  /** MAX reports a merged value no smaller than any other; exact iff every value is in float range. */
  lemma {:induction false} MaxIsGreatest(vs: seq<int>)
    requires |vs| > 0
    ensures IntResult(Max, MergeValues(Max, vs)) in vs
    ensures forall i :: 0 <= i < |vs| ==> IntResult(Max, MergeValues(Max, vs)) >= vs[i]
    ensures MergeValues(Max, vs).exact <==> forall i :: 0 <= i < |vs| ==> FloatExact(vs[i])
  {
    var init := vs[..|vs| - 1];
    if |init| > 0 {
      MaxIsGreatest(init);
      assert forall i :: 0 <= i < |init| ==> vs[i] == init[i];
    }
  }

  /**
   * Every merged value and every partial sum is a float-exact integer: the prefix
   * before the last value qualifies, and so do the last value and the whole sum.
   */
  predicate PartialSumsExact(vs: seq<int>) {
    |vs| == 0 ||
    (PartialSumsExact(vs[..|vs| - 1]) && FloatExact(vs[|vs| - 1]) && FloatExact(SeqSum(vs)))
  }

  /**
   * SUM reports the sum of the merged values; it is exact iff every value and every
   * partial sum is within float range.
   */
  lemma {:induction false} SumIsTotal(vs: seq<int>)
    ensures IntResult(Sum, MergeValues(Sum, vs)) == SeqSum(vs)
    ensures MergeValues(Sum, vs).exact <==> PartialSumsExact(vs)
  {
    if |vs| > 0 {
      var init := vs[..|vs| - 1];
      var v := vs[|vs| - 1];
      SumIsTotal(init);
      CountIsNumberMerged(Sum, init);
      assert SeqSum(vs) == SeqSum(init) + v;
      var prev := MergeValues(Sum, init);
      assert MergeValues(Sum, vs) == Merge(Sum, prev, v);
      if |init| == 0 {
        assert SeqSum(init) == 0;
        assert prev == Fresh;
      } else {
        assert prev.count > 0 && prev.result == SeqSum(init);
      }
    }
  }

  /**
   * AVG keeps the total of the merged values and reports their mean truncated toward
   * zero (0 when nothing was merged); it is exact only for a single float-exact value.
   */
  lemma {:induction false} AvgIsMean(vs: seq<int>)
    ensures MergeValues(Avg, vs).result == SeqSum(vs)
    ensures |vs| > 0 ==> IntResult(Avg, MergeValues(Avg, vs)) == TruncDiv(SeqSum(vs), |vs|)
    ensures |vs| == 0 ==> IntResult(Avg, MergeValues(Avg, vs)) == 0
    ensures MergeValues(Avg, vs).exact <==> |vs| == 0 || (|vs| == 1 && FloatExact(vs[0]))
  {
    CountIsNumberMerged(Avg, vs);
    if |vs| > 0 {
      var init := vs[..|vs| - 1];
      var v := vs[|vs| - 1];
      AvgIsMean(init);
      CountIsNumberMerged(Avg, init);
      assert SeqSum(vs) == SeqSum(init) + v;
      var prev := MergeValues(Avg, init);
      assert MergeValues(Avg, vs) == Merge(Avg, prev, v);
      if |init| == 0 {
        assert SeqSum(init) == 0;
        assert prev == Fresh;
        assert v == vs[0];
      }
    }
  }
}

=== FILE: fields.dfy ===
/**
 * Field values and the empty group-key sentinel (simpledb.storage.EmptyField).
 *
 * The sentinel takes part in equality and hashing only; every other capability of
 * a field (serialisation, comparison, reporting its type) fails on it. The integer
 * and string field classes are not part of this model: their byte encoding, their
 * comparison and their hash are passed in as functions.
 */
module Fields {
  import opened Wrappers

  /** The column types a schema can name (simpledb.common.Type). */
  datatype Type = IntType | StringType

  /** A field value; `EmptyField` is the key used by an aggregate that does not group. */
  datatype Field = IntField(n: int) | StringField(s: string) | EmptyField

  /** The relational operators of a predicate (simpledb.execution.Predicate.Op). */
  datatype Op = Equals | GreaterThan | LessThan | LessThanOrEq | GreaterThanOrEq | Like | NotEquals

  /** The runtime exception the sentinel throws for an unsupported capability. */
  datatype FieldError = NotImplemented

  /** The type a non-sentinel field has. */
  predicate HasType(f: Field, t: Type) {
    (f.IntField? && t == IntType) || (f.StringField? && t == StringType)
  }

  /**
   * Java `equals`: a sentinel equals exactly the other sentinels (`instanceof`
   * test); the other kinds compare by kind and value.
   */
  predicate FieldEquals(a: Field, b: Field)
  {
    match a
    case EmptyField => b.EmptyField?
    case IntField(n) => b.IntField? && b.n == n
    case StringField(s) => b.StringField? && b.s == s
  }

  /** Field equality is value equality of the model, hence reflexive, symmetric, transitive. */
  lemma FieldEqualsIsValueEquality(a: Field, b: Field)
    ensures FieldEquals(a, b) <==> a == b
  {
  }

  /** Java `hashCode`: the sentinel hashes to 1; other kinds use their own hash. */
  function HashCode(f: Field, valueHash: Field -> int): (h: int)
    ensures f.EmptyField? ==> h == 1
    ensures !f.EmptyField? ==> h == valueHash(f)
  {
    if f.EmptyField? then 1 else valueHash(f)
  }

  /** Equal fields hash equally, whatever hash the other kinds use. */
  lemma HashConsistentWithEquals(a: Field, b: Field, valueHash: Field -> int)
    requires FieldEquals(a, b)
    ensures HashCode(a, valueHash) == HashCode(b, valueHash)
  {
  }

  /** `getType`: fails on the sentinel, otherwise reports the field's kind. */
  function GetType(f: Field): (r: Result<Type, FieldError>)
    ensures r.Failure? <==> f.EmptyField?
    ensures r.Success? ==> HasType(f, r.value)
  {
    match f
    case IntField(_) => Success(IntType)
    case StringField(_) => Success(StringType)
    case EmptyField => Failure(NotImplemented)
  }

  /** `serialize`: fails on the sentinel, otherwise writes the field's own encoding. */
  function Serialize(f: Field, encode: Field -> seq<bv8>): (r: Result<seq<bv8>, FieldError>)
    ensures r.Failure? <==> f.EmptyField?
    ensures r.Success? ==> r.value == encode(f)
  {
    if f.EmptyField? then Failure(NotImplemented) else Success(encode(f))
  }

  /** `compare`: fails when the receiver is the sentinel, otherwise uses the kind's comparison. */
  function Compare(op: Op, f: Field, other: Field, cmp: (Op, Field, Field) -> bool): (r: Result<bool, FieldError>)
    ensures r.Failure? <==> f.EmptyField?
    ensures r.Success? ==> r.value == cmp(op, f, other)
  {
    if f.EmptyField? then Failure(NotImplemented) else Success(cmp(op, f, other))
  }

  /**
   * The sentinel supports equality and hashing only: any two sentinels are equal,
   * a sentinel never equals a field of another kind, its hash is the constant 1,
   * and serialisation, comparison and `getType` all fail on it.
   */
  lemma EmptyFieldOnlyEquality(other: Field, op: Op, encode: Field -> seq<bv8>,
                               cmp: (Op, Field, Field) -> bool, valueHash: Field -> int)
    ensures FieldEquals(EmptyField, other) <==> other.EmptyField?
    ensures FieldEquals(other, EmptyField) <==> other.EmptyField?
    ensures HashCode(EmptyField, valueHash) == 1
    ensures Serialize(EmptyField, encode).Failure?
    ensures Compare(op, EmptyField, other, cmp).Failure?
    ensures GetType(EmptyField).Failure?
  {
  }
}

=== FILE: file_layout.dfy ===
/**
 * Byte-level page addressing of a heap file (HeapFile.readPage, writePage, numPages).
 *
 * The file is a sequence of bytes; page `n` starts at byte `pageSize * n`. The page
 * size is the buffer pool's process-wide constant, passed in as a parameter.
 */
module FileLayout {
  import opened Wrappers
  import opened Ints

  /** The byte offset at which page `pgNo` starts; reads and writes both use it. */
  function PageOffset(pageSize: nat, pgNo: nat): nat {
    pageSize * pgNo
  }

  /** `numPages`: the ceiling of the file length over the page size. */
  function NumPages(fileLength: nat, pageSize: nat): (n: nat)
    requires pageSize > 0
    ensures n * pageSize >= fileLength
    ensures n == 0 || (n - 1) * pageSize < fileLength
  {
    var q := fileLength / pageSize;
    var rem := fileLength % pageSize;
    assert fileLength == q * pageSize + rem;
    if rem == 0 then q else q + 1
  }

  /** The two bounds of `NumPages` pin it down: it is the only ceiling. */
  lemma NumPagesUnique(fileLength: nat, pageSize: nat, n: nat)
    requires pageSize > 0
    requires n * pageSize >= fileLength
    requires n == 0 || (n - 1) * pageSize < fileLength
    ensures n == NumPages(fileLength, pageSize)
  {
    var m := NumPages(fileLength, pageSize);
    if n < m {
      MulMono(n, m - 1, pageSize);
    } else if n > m {
      MulMono(m, n - 1, pageSize);
    }
  }

  lemma MulMono(a: nat, b: nat, c: nat)
    requires a <= b
    ensures a * c <= b * c
  {
  }

  /** Pages do not overlap: an earlier page ends at or before a later one begins. */
  lemma PagesDisjoint(pageSize: nat, a: nat, b: nat)
    requires a < b
    ensures PageOffset(pageSize, a) + pageSize <= PageOffset(pageSize, b)
  {
    MulMono(a + 1, b, pageSize);
    assert (a + 1) * pageSize == pageSize * a + pageSize;
  }

  /** An empty file has no pages; whole pages count exactly; a partial tail adds one page. */
  lemma NumPagesShape(k: nat, tail: nat, pageSize: nat)
    requires pageSize > 0
    requires tail < pageSize
    ensures NumPages(0, pageSize) == 0
    ensures NumPages(k * pageSize, pageSize) == k
    ensures tail > 0 ==> NumPages(k * pageSize + tail, pageSize) == k + 1
  {
    NumPagesUnique(0, pageSize, 0);
    if k > 0 {
      assert (k - 1) * pageSize == k * pageSize - pageSize;
    }
    NumPagesUnique(k * pageSize, pageSize, k);
    if tail > 0 {
      assert (k + 1) * pageSize == k * pageSize + pageSize;
      NumPagesUnique(k * pageSize + tail, pageSize, k + 1);
    }
  }

  /**
   * `readPage`: the window of `min(fileLength - offset, pageSize)` bytes at the page's
   * offset. Past the end of the file that size is negative and the array allocation
   * throws, modelled as `None`.
   */
  function ReadPage(file: seq<bv8>, pageSize: nat, pgNo: nat): (r: Option<seq<bv8>>)
    ensures r.Some? <==> PageOffset(pageSize, pgNo) <= |file|
    ensures r.Some? ==> |r.value| == Min(|file| - PageOffset(pageSize, pgNo), pageSize)
    ensures r.Some? ==> |r.value| <= pageSize
    ensures r.Some? ==> PageOffset(pageSize, pgNo) + |r.value| <= |file|
    ensures r.Some? ==> forall i :: 0 <= i < |r.value| ==> r.value[i] == file[PageOffset(pageSize, pgNo) + i]
  {
    var offset := PageOffset(pageSize, pgNo);
    if offset > |file| then None
    else
      var size := Min(|file| - offset, pageSize);
      Some(file[offset .. offset + size])
  }

  /** Only the last page can be short: a page that is followed by another is read whole. */
  lemma OnlyLastPageShort(file: seq<bv8>, pageSize: nat, pgNo: nat)
    requires pageSize > 0
    requires pgNo + 1 < NumPages(|file|, pageSize)
    ensures ReadPage(file, pageSize, pgNo).Some?
    ensures |ReadPage(file, pageSize, pgNo).value| == pageSize
  {
    var n := NumPages(|file|, pageSize);
    assert pgNo + 1 <= n - 1;
    MulMono(pgNo + 1, n - 1, pageSize);
    assert PageOffset(pageSize, pgNo) + pageSize == (pgNo + 1) * pageSize;
  }

  /** The last page of a file holds the bytes that remain after the full pages. */
  lemma LastPageSize(file: seq<bv8>, pageSize: nat)
    requires pageSize > 0
    requires NumPages(|file|, pageSize) > 0
    ensures var last := NumPages(|file|, pageSize) - 1;
            ReadPage(file, pageSize, last).Some? &&
            |ReadPage(file, pageSize, last).value| == |file| - PageOffset(pageSize, last) &&
            0 < |ReadPage(file, pageSize, last).value|
  {
    var n := NumPages(|file|, pageSize);
    assert (n - 1) * pageSize + pageSize == n * pageSize;
  }

  /**
   * `writePage`: seek to the page's offset and write the page image. Bytes before
   * the offset and after the written range are kept; the file grows only when the
   * write passes the old end. Seeking past the end leaves a gap whose contents the
   * platform does not specify; the model fills it with zero bytes.
   */
  function WritePage(file: seq<bv8>, pageSize: nat, pgNo: nat, data: seq<bv8>): (r: seq<bv8>)
    ensures |r| == Max(|file|, PageOffset(pageSize, pgNo) + |data|)
    ensures r[PageOffset(pageSize, pgNo) .. PageOffset(pageSize, pgNo) + |data|] == data
    ensures forall i :: 0 <= i < |file| && !(PageOffset(pageSize, pgNo) <= i < PageOffset(pageSize, pgNo) + |data|) ==> r[i] == file[i]
  {
    var offset := PageOffset(pageSize, pgNo);
    var before := if offset <= |file| then file[..offset] else file + seq(offset - |file|, _ => 0 as bv8);
    var after := if offset + |data| < |file| then file[offset + |data|..] else [];
    before + data + after
  }

  /** A whole page written and then read back at the same page number comes back unchanged. */
  lemma WriteThenReadSamePage(file: seq<bv8>, pageSize: nat, pgNo: nat, data: seq<bv8>)
    requires |data| == pageSize
    ensures ReadPage(WritePage(file, pageSize, pgNo, data), pageSize, pgNo) == Some(data)
  {
    var w := WritePage(file, pageSize, pgNo, data);
    var offset := PageOffset(pageSize, pgNo);
    assert |w| >= offset + pageSize;
    assert Min(|w| - offset, pageSize) == pageSize;
  }

  /** Writing one page leaves every other page that was already in the file as it was. */
  lemma WriteKeepsOtherPages(file: seq<bv8>, pageSize: nat, pgNo: nat, other: nat, data: seq<bv8>)
    requires pageSize > 0
    requires |data| == pageSize
    requires other != pgNo
    requires PageOffset(pageSize, other) + pageSize <= |file|
    ensures ReadPage(WritePage(file, pageSize, pgNo, data), pageSize, other) == ReadPage(file, pageSize, other)
  {
    var w := WritePage(file, pageSize, pgNo, data);
    var o := PageOffset(pageSize, other);
    var p := PageOffset(pageSize, pgNo);
    if other < pgNo {
      PagesDisjoint(pageSize, other, pgNo);
    } else {
      PagesDisjoint(pageSize, pgNo, other);
    }
    forall i | o <= i < o + pageSize
      ensures w[i] == file[i]
    {
      assert !(p <= i < p + |data|);
    }
    assert |w| >= |file|;
    assert ReadPage(file, pageSize, other) == Some(file[o .. o + pageSize]);
    assert ReadPage(w, pageSize, other) == Some(w[o .. o + pageSize]);
    assert w[o .. o + pageSize] == file[o .. o + pageSize];
  }

  /**
   * Appending a whole page at the first missing page number of a page-aligned file
   * adds exactly one page.
   */
  lemma AppendPageAddsOne(file: seq<bv8>, pageSize: nat, data: seq<bv8>)
    requires pageSize > 0
    requires |file| % pageSize == 0
    requires |data| == pageSize
    ensures var n := NumPages(|file|, pageSize);
            NumPages(|WritePage(file, pageSize, n, data)|, pageSize) == n + 1
  {
    var k := |file| / pageSize;
    assert |file| == k * pageSize;
    NumPagesShape(k, 0, pageSize);
    var n := NumPages(|file|, pageSize);
    assert PageOffset(pageSize, n) + |data| == (k + 1) * pageSize;
    NumPagesShape(k + 1, 0, pageSize);
  }
}

=== FILE: float_agg_result.dfy ===
/**
 * The accumulator as the source writes it: the result in a 32-bit float, so every
 * integer stored in it is rounded to the nearest float.
 */
module FloatAggResults {
  import Ints
  import opened AggResults

  /**
   * The float a Java `int` converts to: itself up to magnitude 2^24, otherwise the
   * nearest multiple of the float spacing at that magnitude, ties to even.
   */
  function FloatRound(x: int): (f: int)
    ensures FloatExact(x) ==> f == x
  {
    var m := if x < 0 then -x else x;
    if m <= FloatExactLimit then x
    else
      var u := FloatSpacing(m);
      var q := m / u;
      var rem := m % u;
      var q' := if 2 * rem < u then q else if 2 * rem > u then q + 1 else if q % 2 == 0 then q else q + 1;
      if x < 0 then -(q' * u) else q' * u
  }

  /** The distance between adjacent floats at magnitude `m` (at least 2^24). */
  function FloatSpacing(m: nat): (u: nat)
    requires m >= FloatExactLimit
    ensures u >= 2
  {
    if m < 2 * FloatExactLimit then 2 else 2 * FloatSpacing(m / 2)
  }

  /** The source's accumulator: the count and the float result (an integer-valued float). */
  datatype FloatAcc = FloatAcc(count: nat, result: int)

  /**
   * `AggResult.merge` as written, with the float result: every value is converted to
   * float before it is stored, compared or added, and every sum is rounded to float.
   */
  function MergeAsWritten(op: AggOp, a: FloatAcc, v: int): (r: FloatAcc)
    requires op != Avg
    ensures r.count == a.count + 1
  {
    if a.count == 0 then FloatAcc(1, FloatRound(v))
    else
      match op
      case Min => FloatAcc(a.count + 1, Ints.Min(a.result, FloatRound(v)))
      case Max => FloatAcc(a.count + 1, Ints.Max(a.result, FloatRound(v)))
      case Sum => FloatAcc(a.count + 1, FloatRound(a.result + FloatRound(v)))
      case Count => FloatAcc(a.count + 1, a.result)
  }

  /**
   * Java's `(int)` cast of an integer-valued float: the value itself inside the `int`
   * range, saturated at the nearer end outside it.
   */
  function IntCast(f: int): (r: int)
    ensures -2147483648 <= r <= 2147483647
    ensures -2147483648 <= f <= 2147483647 ==> r == f
    ensures f > 2147483647 ==> r == 2147483647
    ensures f < -2147483648 ==> r == -2147483648
  {
    if f > 2147483647 then 2147483647 else if f < -2147483648 then -2147483648 else f
  }

  /** `intResult` as written: the count for COUNT, the float result cast to int otherwise. */
  function IntResultAsWritten(op: AggOp, a: FloatAcc): int {
    if op == Count then a.count else IntCast(a.result)
  }

  function MergeValuesAsWritten(op: AggOp, vs: seq<int>): FloatAcc
    requires op != Avg
  {
    if |vs| == 0 then FloatAcc(0, 0)
    else MergeAsWritten(op, MergeValuesAsWritten(op, vs[..|vs| - 1]), vs[|vs| - 1])
  }

  /**
   * While the exactness flag holds, the exact accumulator and the source's float
   * accumulator report the same result.
   */
  lemma {:induction false} AgreesWhileExact(op: AggOp, vs: seq<int>)
    requires op != Avg
    ensures MergeValuesAsWritten(op, vs).count == MergeValues(op, vs).count
    ensures MergeValues(op, vs).exact ==>
              IntResultAsWritten(op, MergeValuesAsWritten(op, vs)) == IntResult(op, MergeValues(op, vs))
    ensures MergeValues(op, vs).exact ==> MergeValuesAsWritten(op, vs).result == MergeValues(op, vs).result
    ensures MergeValues(op, vs).exact ==> FloatExact(MergeValues(op, vs).result)
  {
    if |vs| > 0 {
      AgreesWhileExact(op, vs[..|vs| - 1]);
    }
  }

  /**
   * The float accumulator loses integers above 2^24: MIN of the single value
   * 2^24 + 1 is reported as 2^24 as written, and as 2^24 + 1 by the exact accumulator.
   */
  lemma MinRoundsLargeValue()
    ensures IntResultAsWritten(Min, MergeValuesAsWritten(Min, [16777217])) == 16777216
    ensures IntResult(Min, MergeValues(Min, [16777217])) == 16777217
  {
    assert [16777217][..0] == [];
    assert FloatSpacing(16777217) == 2;
  }

  /**
   * `Integer.MAX_VALUE` rounds up to the float 2^31, beyond the `int` range, and the
   * cast in `intResult` saturates it back to `Integer.MAX_VALUE`.
   */
  lemma MinOfIntMaxSaturates()
    ensures MergeValuesAsWritten(Min, [2147483647]).result == 2147483648
    ensures IntResultAsWritten(Min, MergeValuesAsWritten(Min, [2147483647])) == 2147483647
  {
    assert [2147483647][..0] == [];
    assert FloatSpacing(33554431) == 2;
    assert FloatSpacing(67108863) == 4;
    assert FloatSpacing(134217727) == 8;
    assert FloatSpacing(268435455) == 16;
    assert FloatSpacing(536870911) == 32;
    assert FloatSpacing(1073741823) == 64;
    assert FloatSpacing(2147483647) == 128;
  }
}

=== FILE: heap_file.dfy ===
/**
 * A heap file as the sequence of its pages (HeapFile.numPages, insertTuple, deleteTuple).
 *
 * `BufferPool.getPage` is a lookup into that sequence, and asking for a page number
 * at or past the end is the fetch failure that sends `insertTuple` down its append
 * path. Page contents are the slot view of `HeapPages`.
 */
module HeapFiles {
  import opened Wrappers
  import opened Fields
  import opened Storage
  import opened HeapPages

  /**
   * A table's file: its id (the hash of its path, treated as an opaque constant), its
   * schema, the slot count every page of that schema has, and its pages.
   */
  datatype HeapFile = HeapFile(id: int, td: seq<Type>, slotsPerPage: nat, pages: seq<HeapPage>)

  /** Every page of the file has the file's slot count. */
  predicate Valid(hf: HeapFile) {
    forall i :: 0 <= i < |hf.pages| ==> |hf.pages[i].slots| == hf.slotsPerPage
  }

  /**
   * `numPages` over the page sequence. This model takes the page count as given; how
   * it follows from the file's byte length is `FileLayout.NumPages`.
   */
  function NumPages(hf: HeapFile): nat {
    |hf.pages|
  }

  /** `BufferPool.getPage` on this file: the page, or nothing past the end. */
  function GetPage(hf: HeapFile, pgNo: nat): (r: Option<HeapPage>)
    ensures r.Some? <==> pgNo < NumPages(hf)
    ensures r.Some? ==> r.value == hf.pages[pgNo]
  {
    if pgNo < |hf.pages| then Some(hf.pages[pgNo]) else None
  }

  predicate Full(p: HeapPage) {
    NumEmptySlots(p.slots) == 0
  }

  /**
   * Page `k` is the first-fit choice: every page before it is full, and it either
   * has a free slot or is the first page number past the end.
   */
  predicate IsFirstFit(pages: seq<HeapPage>, k: nat) {
    && k <= |pages|
    && (forall i :: 0 <= i < k ==> Full(pages[i]))
    && (k < |pages| ==> !Full(pages[k]))
  }

  /** There is only one first-fit page. */
  lemma FirstFitUnique(pages: seq<HeapPage>, k1: nat, k2: nat)
    requires IsFirstFit(pages, k1) && IsFirstFit(pages, k2)
    ensures k1 == k2
  {
  }

  /** The number of occupied slots over all pages. */
  function TotalOccupied(pages: seq<HeapPage>): nat
  {
    if |pages| == 0 then 0
    else TotalOccupied(pages[..|pages| - 1]) + |Occupied(pages[|pages| - 1].slots)|
  }

  /** Replacing one page changes the total by that page's change. */
  lemma {:induction false} TotalOccupiedUpdate(pages: seq<HeapPage>, k: nat, p: HeapPage)
    requires k < |pages|
    ensures TotalOccupied(pages[k := p]) ==
            TotalOccupied(pages) - |Occupied(pages[k].slots)| + |Occupied(p.slots)|
  {
    var last := |pages| - 1;
    if k == last {
      assert pages[k := p][..last] == pages[..last];
    } else {
      assert pages[k := p][..last] == pages[..last][k := p];
      TotalOccupiedUpdate(pages[..last], k, p);
    }
  }

  /** The request for page `pgNo` of file `id` with write permission. */
  function WriteRequest(id: int, pgNo: nat): PageRequest {
    PageRequest(PageId(id, pgNo), ReadWrite)
  }

  /** Requests for pages 0 .. n-1 in order, as the first-fit scan makes them. */
  function ScanRequests(id: int, n: nat): (rs: seq<PageRequest>)
    ensures |rs| == n
    ensures forall i :: 0 <= i < n ==> rs[i] == WriteRequest(id, i)
  {
    seq(n, (i: nat) => WriteRequest(id, i))
  }

  /**
   * The append path of `insertTuple`: at the first page number past the end an
   * empty page is written; any other page number leaves the file as it is.
   */
  function Grow(hf: HeapFile, pgNo: nat): (g: HeapFile)
    requires Valid(hf) && pgNo <= NumPages(hf)
    ensures Valid(g) && g.id == hf.id && g.td == hf.td && g.slotsPerPage == hf.slotsPerPage
    ensures pgNo < NumPages(hf) ==> g == hf
    ensures pgNo == NumPages(hf) ==> g.pages == hf.pages + [EmptyPage(hf.slotsPerPage)]
    ensures pgNo < NumPages(g) && NumEmptySlots(g.pages[pgNo].slots) == NumEmptySlots(if pgNo < NumPages(hf) then hf.pages[pgNo].slots else EmptyPage(hf.slotsPerPage).slots)
    ensures TotalOccupied(g.pages) == TotalOccupied(hf.pages)
  {
    if pgNo < |hf.pages| then hf
    else
      var g := hf.(pages := hf.pages + [EmptyPage(hf.slotsPerPage)]);
      EmptyPageCounts(hf.slotsPerPage);
      assert g.pages[..|hf.pages|] == hf.pages;
      g
  }

  /**
   * The placement step of `insertTuple` once the first-fit page number is known: at
   * the first page number past the end an empty page is appended first; the tuple
   * then goes into that page. Returns the file and the touched page (or its refusal).
   */
  function PlaceAt(hf: HeapFile, pgNo: nat, t: Tuple): (res: (HeapFile, Result<HeapPage, DbError>))
    requires Valid(hf) && IsFirstFit(hf.pages, pgNo)
    ensures Valid(res.0)
    ensures res.0.id == hf.id && res.0.td == hf.td && res.0.slotsPerPage == hf.slotsPerPage
    ensures pgNo < NumPages(hf) ==> NumPages(res.0) == NumPages(hf)
    ensures pgNo == NumPages(hf) ==> NumPages(res.0) == NumPages(hf) + 1
    ensures res.1.Failure? <==> t.td != hf.td || (pgNo == NumPages(hf) && hf.slotsPerPage == 0)
    ensures res.1.Success? ==>
              var before := if pgNo < NumPages(hf) then hf.pages[pgNo] else EmptyPage(hf.slotsPerPage);
              InsertIntoPage(before, PageId(hf.id, pgNo), hf.td, t) == Success(res.1.value)
    ensures res.1.Success? ==> pgNo < NumPages(res.0) && res.0.pages[pgNo] == res.1.value
    ensures res.1.Success? ==> forall i :: 0 <= i < NumPages(hf) && i != pgNo ==> res.0.pages[i] == hf.pages[i]
    ensures res.1.Success? ==> TotalOccupied(res.0.pages) == TotalOccupied(hf.pages) + 1
    ensures res.1.Failure? ==> res.0.pages == hf.pages ||
                               (pgNo == NumPages(hf) && res.0.pages == hf.pages + [EmptyPage(hf.slotsPerPage)])
  {
    var grown := Grow(hf, pgNo);
    var page := grown.pages[pgNo];
    var r := InsertIntoPage(page, PageId(hf.id, pgNo), hf.td, t);
    if r.Failure? then (grown, r)
    else
      PlaceAccounting(grown, pgNo, r.value);
      (grown.(pages := grown.pages[pgNo := r.value]), r)
  }

  /** Replacing a page by one with a single extra occupied slot keeps the file valid and adds one to the total. */
  lemma PlaceAccounting(hf: HeapFile, pgNo: nat, p: HeapPage)
    requires Valid(hf) && pgNo < NumPages(hf)
    requires |p.slots| == hf.slotsPerPage
    requires NumEmptySlots(p.slots) + 1 == NumEmptySlots(hf.pages[pgNo].slots)
    ensures Valid(hf.(pages := hf.pages[pgNo := p]))
    ensures TotalOccupied(hf.pages[pgNo := p]) == TotalOccupied(hf.pages) + 1
  {
    SlotAccounting(hf.pages[pgNo].slots);
    SlotAccounting(p.slots);
    TotalOccupiedUpdate(hf.pages, pgNo, p);
  }

  /**
   * `insertTuple`: scan page numbers from 0, fetching each with write permission,
   * and take the first page with a free slot. When a fetch fails (the page number is
   * past the end), write an empty page there, fetch it again, and take it. Then
   * insert the tuple into the chosen page. Returns the file after the call, the
   * chosen page number, the page requests made, and the touched page (or the page's
   * refusal). The empty page stays appended even when the page then refuses the tuple.
   */
  method InsertTuple(hf: HeapFile, t: Tuple)
    returns (hf': HeapFile, pgNo: nat, requests: seq<PageRequest>, r: Result<HeapPage, DbError>)
    requires Valid(hf)
    ensures Valid(hf')
    ensures hf'.id == hf.id && hf'.td == hf.td && hf'.slotsPerPage == hf.slotsPerPage
    ensures IsFirstFit(hf.pages, pgNo)
    ensures pgNo < NumPages(hf) ==> NumPages(hf') == NumPages(hf)
    ensures pgNo == NumPages(hf) ==> NumPages(hf') == NumPages(hf) + 1
    ensures requests == ScanRequests(hf.id, pgNo + 1) + (if pgNo == NumPages(hf) then [WriteRequest(hf.id, pgNo)] else [])
    ensures r.Failure? <==> t.td != hf.td || (pgNo == NumPages(hf) && hf.slotsPerPage == 0)
    ensures r.Success? ==>
              var before := if pgNo < NumPages(hf) then hf.pages[pgNo] else EmptyPage(hf.slotsPerPage);
              InsertIntoPage(before, PageId(hf.id, pgNo), hf.td, t) == Success(r.value)
    ensures r.Success? ==> pgNo < NumPages(hf') && hf'.pages[pgNo] == r.value
    ensures r.Success? ==> forall i :: 0 <= i < NumPages(hf) && i != pgNo ==> hf'.pages[i] == hf.pages[i]
    ensures r.Success? ==> TotalOccupied(hf'.pages) == TotalOccupied(hf.pages) + 1
    ensures r.Failure? ==> hf'.pages == hf.pages ||
                           (pgNo == NumPages(hf) && hf'.pages == hf.pages + [EmptyPage(hf.slotsPerPage)])
  {
    pgNo := 0;
    requests := [WriteRequest(hf.id, 0)];
    while GetPage(hf, pgNo).Some? && Full(GetPage(hf, pgNo).value)
      invariant pgNo <= |hf.pages|
      invariant forall i :: 0 <= i < pgNo ==> Full(hf.pages[i])
      invariant requests == ScanRequests(hf.id, pgNo + 1)
      decreases |hf.pages| - pgNo
    {
      pgNo := pgNo + 1;
      requests := requests + [WriteRequest(hf.id, pgNo)];
    }
    if pgNo == |hf.pages| {
      // writePage of an empty page at the first missing page number, then fetch it
      requests := requests + [WriteRequest(hf.id, pgNo)];
    }
    var placed := PlaceAt(hf, pgNo, t);
    hf', r := placed.0, placed.1;
  }

  /** What `deleteTuple` did: the page requests it made and its outcome. */
  datatype DeleteOutcome = DeleteOutcome(requests: seq<PageRequest>, result: Result<(HeapFile, nat), DbError>)

  /**
   * `deleteTuple`: the tuple's address must name this file's table (checked before
   * any page is fetched); the owning page is fetched with write permission and the
   * tuple's slot freed. Returns the file after the call and the touched page number.
   */
  function DeleteTuple(hf: HeapFile, t: Tuple): (d: DeleteOutcome)
    requires Valid(hf)
    ensures t.rid.None? ==> d == DeleteOutcome([], Failure(NoRecordId))
    ensures t.rid.Some? && t.rid.value.pid.tableId != hf.id ==>
              d == DeleteOutcome([], Failure(TableIdMismatch(hf.id, t.rid.value.pid.tableId)))
    ensures t.rid.Some? && t.rid.value.pid.tableId == hf.id ==>
              d.requests == [WriteRequest(hf.id, t.rid.value.pid.pgNo)]
    ensures d.result.Success? <==>
              && t.rid.Some? && t.rid.value.pid.tableId == hf.id
              && t.rid.value.pid.pgNo < NumPages(hf)
              && t.rid.value.slot < hf.slotsPerPage
              && hf.pages[t.rid.value.pid.pgNo].slots[t.rid.value.slot].Some?
    ensures d.result.Success? ==>
              var (hf', k) := d.result.value;
              && Valid(hf') && hf'.id == hf.id && hf'.td == hf.td && hf'.slotsPerPage == hf.slotsPerPage
              && k == t.rid.value.pid.pgNo && NumPages(hf') == NumPages(hf)
              && hf'.pages[k].slots == hf.pages[k].slots[t.rid.value.slot := None]
              && (forall i :: 0 <= i < NumPages(hf) && i != k ==> hf'.pages[i] == hf.pages[i])
              && TotalOccupied(hf'.pages) + 1 == TotalOccupied(hf.pages)
  {
    match t.rid
    case None => DeleteOutcome([], Failure(NoRecordId))
    case Some(rid) =>
      if hf.id != rid.pid.tableId then
        DeleteOutcome([], Failure(TableIdMismatch(hf.id, rid.pid.tableId)))
      else
        var pid := PageId(hf.id, rid.pid.pgNo);
        var requests := [WriteRequest(hf.id, rid.pid.pgNo)];
        match GetPage(hf, rid.pid.pgNo)
        case None => DeleteOutcome(requests, Failure(PageNotFound(rid.pid.pgNo)))
        case Some(page) =>
          match DeleteFromPage(page, pid, t)
          case Failure(e) => DeleteOutcome(requests, Failure(e))
          case Success(page') =>
            SlotAccounting(page.slots);
            SlotAccounting(page'.slots);
            TotalOccupiedUpdate(hf.pages, rid.pid.pgNo, page');
            DeleteOutcome(requests, Success((hf.(pages := hf.pages[rid.pid.pgNo := page']), rid.pid.pgNo)))
  }
}

=== FILE: heap_file_iterator.dfy ===
/**
 * The cross-page cursor of a heap file (HeapDbFileIterator).
 *
 * The file is given as the tuple sequence of each of its pages (what fetching page
 * `i` and iterating it yields). The cursor is the page number it is on and what is
 * left of that page's iterator, or nothing (Java's `null`). It also keeps the log
 * of the page requests it made, so that the permission it asks for can be stated.
 */
module FileIterators {
  import opened Wrappers
  import opened Storage
  import HeapPages
  import HeapFiles

  datatype Cursor = Cursor(tableId: int, pageCur: nat, pageIter: Option<seq<Tuple>>, fetches: seq<PageRequest>)

  /** `next` with nothing left, or a page that cannot be fetched. */
  datatype IterError = NoSuchElement | FetchFailed(pgNo: nat)

  /** All tuples of the pages, page after page. */
  function Concat(pages: seq<seq<Tuple>>): seq<Tuple>
  {
    if |pages| == 0 then [] else pages[0] + Concat(pages[1..])
  }

  /** A live page iterator always belongs to an existing page. */
  predicate Inv(c: Cursor, pages: seq<seq<Tuple>>) {
    c.pageIter.Some? ==> c.pageCur < |pages|
  }

  /** Every page fetch of the cursor is a read-only request for a page of its table. */
  predicate ReadOnlyFetches(c: Cursor) {
    forall i :: 0 <= i < |c.fetches| ==> c.fetches[i].perm == ReadOnly && c.fetches[i].pid.tableId == c.tableId
  }

  /** The tuples the cursor has yet to yield: the rest of its page, then every later page. */
  function Remaining(c: Cursor, pages: seq<seq<Tuple>>): seq<Tuple>
    requires Inv(c, pages)
  {
    if c.pageIter.None? then [] else c.pageIter.value + Concat(pages[c.pageCur + 1..])
  }

  /** A fresh cursor (`HeapFile.iterator`): on page 0, not yet open. */
  function Init(tableId: int): (c: Cursor)
    ensures c.pageCur == 0 && c.pageIter.None? && c.fetches == []
  {
    Cursor(tableId, 0, None, [])
  }

  /** Fetch page `pgNo` read-only and start iterating it. */
  function Load(c: Cursor, pages: seq<seq<Tuple>>, pgNo: nat): (r: Cursor)
    requires pgNo < |pages|
    ensures Inv(r, pages) && r.pageCur == pgNo && r.tableId == c.tableId
    ensures Remaining(r, pages) == Concat(pages[pgNo..])
    ensures r.fetches == c.fetches + [PageRequest(PageId(c.tableId, pgNo), ReadOnly)]
  {
    assert pages[pgNo..] == [pages[pgNo]] + pages[pgNo + 1..];
    Cursor(c.tableId, pgNo, Some(pages[pgNo]), c.fetches + [PageRequest(PageId(c.tableId, pgNo), ReadOnly)])
  }

  /**
   * `open`: when the cursor's page exists, (re)load it from its start; otherwise do
   * nothing. The page number is not reset.
   */
  function Open(c: Cursor, pages: seq<seq<Tuple>>): (r: Cursor)
    requires Inv(c, pages)
    ensures Inv(r, pages) && r.pageCur == c.pageCur && r.tableId == c.tableId
    ensures c.pageCur < |pages| ==> Remaining(r, pages) == Concat(pages[c.pageCur..])
    ensures c.pageCur >= |pages| ==> r == c
    ensures ReadOnlyFetches(c) ==> ReadOnlyFetches(r)
  {
    if c.pageCur >= |pages| then c else Load(c, pages, c.pageCur)
  }

  /** An exhausted page iterator leaves exactly the later pages, and nothing after the last page. */
  lemma RemainingPastEmptyPage(c: Cursor, pages: seq<seq<Tuple>>)
    requires Inv(c, pages) && c.pageIter == Some([])
    ensures Remaining(c, pages) == Concat(pages[c.pageCur + 1..])
    ensures c.pageCur + 1 >= |pages| ==> Remaining(c, pages) == []
  {
    assert [] + Concat(pages[c.pageCur + 1..]) == Concat(pages[c.pageCur + 1..]);
    if c.pageCur + 1 >= |pages| {
      assert pages[c.pageCur + 1..] == [];
    }
  }

  /** Taking the head of a non-empty page iterator takes the first remaining tuple. */
  lemma RemainingAfterHead(c: Cursor, pages: seq<seq<Tuple>>)
    requires Inv(c, pages) && c.pageIter.Some? && |c.pageIter.value| > 0
    ensures |Remaining(c, pages)| > 0 && Remaining(c, pages)[0] == c.pageIter.value[0]
    ensures Remaining(c.(pageIter := Some(c.pageIter.value[1..])), pages) == Remaining(c, pages)[1..]
  {
    var later := Concat(pages[c.pageCur + 1..]);
    assert (c.pageIter.value + later)[1..] == c.pageIter.value[1..] + later;
  }

  /**
   * `hasNext`: true when the current page iterator has a tuple; otherwise move to
   * the next page and try again; past the last page, drop the iterator and answer
   * false. It consumes no tuple.
   */
  function HasNext(c: Cursor, pages: seq<seq<Tuple>>): (r: (Cursor, bool))
    requires Inv(c, pages)
    ensures Inv(r.0, pages) && r.0.tableId == c.tableId
    ensures Remaining(r.0, pages) == Remaining(c, pages)
    ensures r.1 <==> |Remaining(c, pages)| > 0
    ensures r.1 ==> r.0.pageIter.Some? && |r.0.pageIter.value| > 0
    ensures !r.1 ==> r.0.pageIter.None?
    ensures ReadOnlyFetches(c) ==> ReadOnlyFetches(r.0)
    decreases |pages| - c.pageCur
  {
    if c.pageIter.None? then (c, false)
    else if |c.pageIter.value| > 0 then (c, true)
    else
      RemainingPastEmptyPage(c, pages);
      var cur := c.pageCur + 1;
      if cur >= |pages| then
        (c.(pageCur := cur, pageIter := None), false)
      else
        HasNext(Load(c, pages, cur), pages)
  }

  /**
   * `next`: the next tuple, moving past exhausted pages as `hasNext` does; with no
   * page iterator, or after the last page, it fails with no such element.
   */
  function Next(c: Cursor, pages: seq<seq<Tuple>>): (r: (Cursor, Result<Tuple, IterError>))
    requires Inv(c, pages)
    ensures Inv(r.0, pages) && r.0.tableId == c.tableId
    ensures r.1.Success? <==> |Remaining(c, pages)| > 0
    ensures r.1.Success? ==> r.1.value == Remaining(c, pages)[0] &&
                             Remaining(r.0, pages) == Remaining(c, pages)[1..]
    ensures r.1.Failure? ==> r.1.error == NoSuchElement && r.0.pageIter.None?
    ensures ReadOnlyFetches(c) ==> ReadOnlyFetches(r.0)
    decreases |pages| - c.pageCur
  {
    if c.pageIter.None? then (c, Failure(NoSuchElement))
    else if |c.pageIter.value| > 0 then
      RemainingAfterHead(c, pages);
      (c.(pageIter := Some(c.pageIter.value[1..])), Success(c.pageIter.value[0]))
    else
      RemainingPastEmptyPage(c, pages);
      var cur := c.pageCur + 1;
      if cur >= |pages| then
        (c.(pageCur := cur, pageIter := None), Failure(NoSuchElement))
      else
        Next(Load(c, pages, cur), pages)
  }

  /**
   * `rewind`: back to page 0, fetched afresh. On a file with no pages that fetch
   * fails.
   */
  function Rewind(c: Cursor, pages: seq<seq<Tuple>>): (r: Result<Cursor, IterError>)
    ensures r.Failure? <==> |pages| == 0
    ensures r.Success? ==> Inv(r.value, pages) && r.value.pageCur == 0 && r.value.tableId == c.tableId
    ensures r.Success? ==> Remaining(r.value, pages) == Concat(pages)
    ensures r.Success? ==> (ReadOnlyFetches(c) ==> ReadOnlyFetches(r.value))
  {
    if |pages| == 0 then Failure(FetchFailed(0)) else Success(Load(c, pages, 0))
  }

  /**
   * `rewind` as its contract intends, `close` then `open` from page 0: never fails,
   * and on a file with no pages leaves an empty iterator.
   */
  function RewindReopen(c: Cursor, pages: seq<seq<Tuple>>): (r: Cursor)
    ensures Inv(r, pages) && r.pageCur == 0 && r.tableId == c.tableId
    ensures Remaining(r, pages) == Concat(pages)
    ensures ReadOnlyFetches(c) ==> ReadOnlyFetches(r)
  {
    Open(c.(pageCur := 0, pageIter := None), pages)
  }

  /**
   * On a file with no pages the source's `rewind` fails, while closing and opening
   * from page 0 gives an iterator with nothing left.
   */
  lemma RewindFailsOnEmptyFile(c: Cursor)
    ensures Rewind(c, []).Failure?
    ensures RewindReopen(c, []).pageIter.None? && Remaining(RewindReopen(c, []), []) == []
  {
  }

  /** `close`: drop the page iterator; the page number stays. */
  function Close(c: Cursor): (r: Cursor)
    ensures r.pageIter.None? && r.pageCur == c.pageCur && r.fetches == c.fetches
  {
    c.(pageIter := None)
  }

  /**
   * A fresh cursor opened on a file covers all its tuples; on a file with no pages
   * it has no page iterator, so `hasNext` is false and `next` fails.
   */
  lemma OpenFresh(tableId: int, pages: seq<seq<Tuple>>)
    ensures Inv(Open(Init(tableId), pages), pages)
    ensures Remaining(Open(Init(tableId), pages), pages) == Concat(pages)
    ensures |pages| == 0 ==> !HasNext(Open(Init(tableId), pages), pages).1
    ensures |pages| == 0 ==> Next(Open(Init(tableId), pages), pages).1 == Failure(NoSuchElement)
    ensures ReadOnlyFetches(Open(Init(tableId), pages))
  {
  }

  /** Once the page iterator is gone, `hasNext` stays false and `next` keeps failing, changing nothing. */
  lemma ExhaustedStaysExhausted(c: Cursor, pages: seq<seq<Tuple>>)
    requires Inv(c, pages)
    requires c.pageIter.None?
    ensures HasNext(c, pages) == (c, false)
    ensures Next(c, pages) == (c, Failure(NoSuchElement))
  {
  }

  /** After `close`, `hasNext` is false. */
  lemma CloseEnds(c: Cursor, pages: seq<seq<Tuple>>)
    ensures Inv(Close(c), pages)
    ensures !HasNext(Close(c), pages).1
  {
  }

  /**
   * `open` on a cursor part-way through a page restarts that page: the tuples of the
   * current page already yielded come again.
   */
  lemma ReopenRestartsPage(c: Cursor, pages: seq<seq<Tuple>>)
    requires Inv(c, pages)
    requires c.pageIter.Some?
    ensures Remaining(Open(c, pages), pages) == pages[c.pageCur] + Concat(pages[c.pageCur + 1..])
  {
    assert pages[c.pageCur..] == [pages[c.pageCur]] + pages[c.pageCur + 1..];
  }

  /**
   * One round of a scan that has a tuple left: `next`, then `hasNext`. It yields the
   * first remaining tuple, leaves the rest, and answers whether any is left.
   */
  function Step(c: Cursor, pages: seq<seq<Tuple>>): (r: (Cursor, Tuple, bool))
    requires Inv(c, pages) && |Remaining(c, pages)| > 0
    ensures Inv(r.0, pages) && r.0.tableId == c.tableId
    ensures [r.1] + Remaining(r.0, pages) == Remaining(c, pages)
    ensures r.2 <==> |Remaining(r.0, pages)| > 0
    ensures !r.2 ==> r.0.pageIter.None?
  {
    var n := Next(c, pages);
    var h := HasNext(n.0, pages);
    assert [n.1.value] + Remaining(n.0, pages) == Remaining(c, pages);
    (h.0, n.1.value, h.1)
  }

  /**
   * Drive the cursor with `hasNext`/`next` until `hasNext` is false; the tuples
   * yielded are exactly what remained, in order, each once.
   */
  method Drain(c0: Cursor, pages: seq<seq<Tuple>>) returns (out: seq<Tuple>, c: Cursor)
    requires Inv(c0, pages)
    ensures out == Remaining(c0, pages)
    ensures Inv(c, pages) && c.pageIter.None? && c.tableId == c0.tableId
  {
    out := [];
    var more: bool;
    c, more := HasNext(c0, pages).0, HasNext(c0, pages).1;
    while more
      invariant Inv(c, pages) && c.tableId == c0.tableId
      invariant out + Remaining(c, pages) == Remaining(c0, pages)
      invariant more <==> |Remaining(c, pages)| > 0
      invariant !more ==> c.pageIter.None?
      decreases |Remaining(c, pages)|
    {
      var step := Step(c, pages);
      assert (out + [step.1]) + Remaining(step.0, pages) == out + Remaining(c, pages);
      out := out + [step.1];
      c, more := step.0, step.2;
    }
  }

  /**
   * A full pass over a file (open, then `hasNext`/`next` to the end) yields the
   * concatenation of its pages; after closing and reopening from page 0 a second full
   * pass yields the same.
   */
  method ScanTwice(tableId: int, pages: seq<seq<Tuple>>) returns (first: seq<Tuple>, second: seq<Tuple>)
    ensures first == Concat(pages)
    ensures second == first
  {
    OpenFresh(tableId, pages);
    var c := Open(Init(tableId), pages);
    first, c := Drain(c, pages);
    second, c := Drain(RewindReopen(c, pages), pages);
  }

  /**
   * A full pass, then the source's `rewind`, then a second full pass: the rewind fails
   * exactly on a file with no pages, and otherwise the second pass repeats the first.
   */
  method ScanRewound(tableId: int, pages: seq<seq<Tuple>>) returns (first: seq<Tuple>, second: Result<seq<Tuple>, IterError>)
    ensures first == Concat(pages)
    ensures second.Failure? <==> |pages| == 0
    ensures second.Success? ==> second.value == first
  {
    OpenFresh(tableId, pages);
    var c := Open(Init(tableId), pages);
    first, c := Drain(c, pages);
    var rewound := Rewind(c, pages);
    if rewound.Failure? {
      second := Failure(rewound.error);
    } else {
      var again;
      again, c := Drain(rewound.value, pages);
      second := Success(again);
    }
  }

  /** The tuple sequence of each page of a heap file, as its page iterators yield them. */
  function Contents(hf: HeapFiles.HeapFile): (pages: seq<seq<Tuple>>)
    ensures |pages| == HeapFiles.NumPages(hf)
    ensures forall i :: 0 <= i < |pages| ==> pages[i] == HeapPages.Occupied(hf.pages[i].slots)
  {
    seq(|hf.pages|, i requires 0 <= i < |hf.pages| => HeapPages.Occupied(hf.pages[i].slots))
  }

  /** A full pass over a heap file yields as many tuples as its pages hold. */
  lemma {:induction false} ConcatLength(hf: HeapFiles.HeapFile)
    ensures |Concat(Contents(hf))| == HeapFiles.TotalOccupied(hf.pages)
    decreases |hf.pages|
  {
    if |hf.pages| > 0 {
      var init := hf.(pages := hf.pages[..|hf.pages| - 1]);
      ConcatLength(init);
      assert Contents(hf) == Contents(init) + [HeapPages.Occupied(hf.pages[|hf.pages| - 1].slots)];
      ConcatAppend(Contents(init), HeapPages.Occupied(hf.pages[|hf.pages| - 1].slots));
    }
  }

  lemma {:induction false} ConcatAppend(pages: seq<seq<Tuple>>, last: seq<Tuple>)
    ensures Concat(pages + [last]) == Concat(pages) + last
  {
    if |pages| > 0 {
      assert (pages + [last])[1..] == pages[1..] + [last];
      ConcatAppend(pages[1..], last);
    } else {
      assert (pages + [last])[1..] == [];
    }
  }
}

=== FILE: heap_page.dfy ===
/**
 * The slot view of a heap page that the heap file relies on.
 *
 * HeapPage.java is not part of this model: its bitmap and byte layout are abstracted
 * to a sequence of slots, each free or holding a tuple. The operations follow the
 * page contract the heap file uses: count free slots, insert into the lowest free
 * slot (recording the tuple's new address), free an occupied slot, and list the
 * occupied tuples in slot order.
 */
module HeapPages {
  import opened Wrappers
  import opened Fields
  import opened Storage

  datatype HeapPage = HeapPage(slots: seq<Option<Tuple>>)

  /** `getNumEmptySlots`: the number of free slots. */
  function NumEmptySlots(slots: seq<Option<Tuple>>): nat
  {
    if |slots| == 0 then 0
    else (if slots[0].None? then 1 else 0) + NumEmptySlots(slots[1..])
  }

  /** The occupied tuples in increasing slot order, as the page iterator yields them. */
  function Occupied(slots: seq<Option<Tuple>>): seq<Tuple>
  {
    if |slots| == 0 then []
    else (if slots[0].Some? then [slots[0].value] else []) + Occupied(slots[1..])
  }

  /** Every slot is either free or occupied. */
  lemma {:induction false} SlotAccounting(slots: seq<Option<Tuple>>)
    ensures NumEmptySlots(slots) + |Occupied(slots)| == |slots|
  {
    if |slots| > 0 {
      SlotAccounting(slots[1..]);
    }
  }

  /** Changing one slot changes the free-slot count by what that slot gained or lost. */
  lemma {:induction false} UpdateSlotCounts(slots: seq<Option<Tuple>>, i: nat, v: Option<Tuple>)
    requires i < |slots|
    ensures NumEmptySlots(slots[i := v]) ==
            NumEmptySlots(slots) - (if slots[i].None? then 1 else 0) + (if v.None? then 1 else 0)
  {
    if i > 0 {
      assert slots[i := v][1..] == slots[1..][i - 1 := v];
      UpdateSlotCounts(slots[1..], i - 1, v);
    } else {
      assert slots[i := v][1..] == slots[1..];
    }
  }

  /** The lowest-numbered free slot. */
  function FirstFree(slots: seq<Option<Tuple>>): (i: nat)
    requires NumEmptySlots(slots) > 0
    ensures i < |slots| && slots[i].None?
    ensures forall j :: 0 <= j < i ==> slots[j].Some?
  {
    if slots[0].None? then 0 else 1 + FirstFree(slots[1..])
  }

  /** A fresh page of `numSlots` free slots (`createEmptyPageData`). */
  function EmptyPage(numSlots: nat): (p: HeapPage)
    ensures |p.slots| == numSlots
    ensures forall i :: 0 <= i < numSlots ==> p.slots[i].None?
  {
    HeapPage(seq(numSlots, _ => None))
  }

  lemma {:induction false} EmptyPageCounts(numSlots: nat)
    ensures NumEmptySlots(EmptyPage(numSlots).slots) == numSlots
    ensures Occupied(EmptyPage(numSlots).slots) == []
  {
    if numSlots > 0 {
      assert EmptyPage(numSlots).slots[1..] == EmptyPage(numSlots - 1).slots;
      EmptyPageCounts(numSlots - 1);
    }
  }

  /**
   * Page `insertTuple`: refuses a tuple of another schema and a full page; otherwise
   * the tuple, with its address set to this page and slot, takes the lowest free slot.
   */
  function InsertIntoPage(p: HeapPage, pid: PageId, td: seq<Type>, t: Tuple): (r: Result<HeapPage, DbError>)
    ensures r.Failure? <==> t.td != td || NumEmptySlots(p.slots) == 0
    ensures r.Success? ==>
              var i := FirstFree(p.slots);
              r.value.slots == p.slots[i := Some(t.(rid := Some(RecordId(pid, i))))]
    ensures r.Success? ==> NumEmptySlots(r.value.slots) + 1 == NumEmptySlots(p.slots)
  {
    if t.td != td then Failure(SchemaMismatch)
    else if NumEmptySlots(p.slots) == 0 then Failure(NoEmptySlot)
    else
      var i := FirstFree(p.slots);
      UpdateSlotCounts(p.slots, i, Some(t.(rid := Some(RecordId(pid, i)))));
      Success(HeapPage(p.slots[i := Some(t.(rid := Some(RecordId(pid, i))))]))
  }

  /**
   * Page `deleteTuple`: the tuple must carry an address on this page whose slot is
   * occupied; that slot becomes free.
   */
  function DeleteFromPage(p: HeapPage, pid: PageId, t: Tuple): (r: Result<HeapPage, DbError>)
    ensures r.Success? <==> t.rid.Some? && t.rid.value.pid == pid &&
                            t.rid.value.slot < |p.slots| && p.slots[t.rid.value.slot].Some?
    ensures r.Success? ==> r.value.slots == p.slots[t.rid.value.slot := None]
    ensures r.Success? ==> NumEmptySlots(r.value.slots) == NumEmptySlots(p.slots) + 1
  {
    match t.rid
    case None => Failure(NoRecordId)
    case Some(rid) =>
      if rid.pid != pid then Failure(NotOnThisPage(rid.pid))
      else if rid.slot >= |p.slots| || p.slots[rid.slot].None? then Failure(SlotNotUsed(rid.slot))
      else
        UpdateSlotCounts(p.slots, rid.slot, None);
        Success(HeapPage(p.slots[rid.slot := None]))
  }
}

=== FILE: insert.dfy ===
/**
 * The Insert operator (simpledb.execution.Insert): a run-once operator that drains
 * its child into a table and reports how many tuples it inserted.
 *
 * `BufferPool.insertTuple` is a parameter: a function from the database state, the
 * transaction, the table id and the tuple to the new state, or to the exception it
 * throws together with the state it leaves behind (a heap file may already have
 * appended an empty page when the page refuses the tuple). The child operator is
 * the sequence of tuples it yields and how many of them it has yielded.
 */
module InsertOperator {
  import opened Wrappers
  import opened Fields
  import opened Storage

  /** The schema of the operator's one result tuple: a single INT field. */
  const ResultTd: seq<Type> := [IntType]

  /** The child operator: its tuples and its position among them. */
  datatype Child = Child(tuples: seq<Tuple>, pos: nat)

  predicate ValidChild(c: Child) {
    c.pos <= |c.tuples|
  }

  /** What `BufferPool.insertTuple` can throw. */
  datatype InsertError = IoError | DbFailure | Aborted

  /** What `fetchNext` can throw. */
  datatype OpError = DbException | TransactionAborted

  /** An Insert: transaction, target table, child, and whether it has already run. */
  datatype Insert = Insert(tid: int, tableId: int, child: Child, executed: bool)

  /** A new Insert over a child that has yielded nothing yet. */
  function NewInsert(tid: int, tableId: int, tuples: seq<Tuple>): (op: Insert)
    ensures ValidChild(op.child) && !op.executed && op.child.tuples == tuples && op.child.pos == 0
  {
    Insert(tid, tableId, Child(tuples, 0), false)
  }

  /** `getTupleDesc`: the result schema, one INT field whatever the child's schema. */
  function GetTupleDesc(op: Insert): (td: seq<Type>)
    ensures |td| == 1 && td[0] == IntType
  {
    ResultTd
  }

  /** The result tuple reporting `n` inserted tuples. */
  function CountTuple(n: int): (t: Tuple)
    ensures t.td == ResultTd && t.fields == [IntField(n)] && t.rid.None?
  {
    Tuple(ResultTd, [IntField(n)], None)
  }

  /** An I/O failure surfaces as a database exception; an abort stays an abort. */
  function OpErrorOf(e: InsertError): (r: OpError)
    ensures r == TransactionAborted <==> e == Aborted
  {
    match e
    case IoError => DbException
    case DbFailure => DbException
    case Aborted => TransactionAborted
  }

  /** The database after inserting `ts` in order, or the first failure and the state it left. */
  function InsertAll<D>(ins: (D, int, int, Tuple) -> Result<D, (D, InsertError)>, tid: int, tableId: int,
                        db: D, ts: seq<Tuple>): Result<D, (D, InsertError)>
  {
    if |ts| == 0 then Success(db)
    else
      match InsertAll(ins, tid, tableId, db, ts[..|ts| - 1])
      case Failure(e) => Failure(e)
      case Success(d) => ins(d, tid, tableId, ts[|ts| - 1])
  }

  /** Once a prefix fails, the whole sequence fails with the same error and state. */
  lemma {:induction false} InsertAllPrefixFails<D>(ins: (D, int, int, Tuple) -> Result<D, (D, InsertError)>,
                                                   tid: int, tableId: int, db: D, ts: seq<Tuple>, n: nat)
    requires n <= |ts|
    requires InsertAll(ins, tid, tableId, db, ts[..n]).Failure?
    ensures InsertAll(ins, tid, tableId, db, ts) == InsertAll(ins, tid, tableId, db, ts[..n])
    decreases |ts| - n
  {
    if n < |ts| {
      var ts' := ts[..n + 1];
      assert ts'[..|ts'| - 1] == ts[..n];
      InsertAllPrefixFails(ins, tid, tableId, db, ts, n + 1);
    } else {
      assert ts[..n] == ts;
    }
  }

  /**
   * `fetchNext`. An Insert that has run returns nothing and touches neither the child
   * nor the database. Otherwise it drains the child, inserting each tuple once, in
   * child order, under its transaction and table; it then marks itself as run and
   * returns one tuple holding the number inserted. If an insert throws, the error
   * surfaces (an I/O failure as a database exception), the database is whatever the
   * failing insert left, the Insert stays not run, and the child stays just past the
   * tuple that failed. `calls` lists the tuples passed to the insert, in order.
   */
  method FetchNext<D>(op: Insert, db: D, ins: (D, int, int, Tuple) -> Result<D, (D, InsertError)>)
    returns (op': Insert, db': D, calls: seq<Tuple>, r: Result<Option<Tuple>, OpError>)
    requires ValidChild(op.child)
    ensures ValidChild(op'.child) && op'.tid == op.tid && op'.tableId == op.tableId
    ensures op'.child.tuples == op.child.tuples
    ensures op.executed ==> op' == op && db' == db && calls == [] && r == Success(None)
    ensures !op.executed ==> op'.child.pos == op.child.pos + |calls|
    ensures !op.executed ==> calls == op.child.tuples[op.child.pos .. op'.child.pos]
    ensures !op.executed ==>
              (r.Success? <==> InsertAll(ins, op.tid, op.tableId, db, op.child.tuples[op.child.pos..]).Success?)
    ensures !op.executed && r.Success? ==>
              && op'.executed && op'.child.pos == |op.child.tuples|
              && r.value == Some(CountTuple(|calls|))
              && InsertAll(ins, op.tid, op.tableId, db, calls) == Success(db')
    ensures !op.executed && r.Failure? ==>
              && !op'.executed && |calls| > 0
              && InsertAll(ins, op.tid, op.tableId, db, calls[..|calls| - 1]).Success?
              && var prev := InsertAll(ins, op.tid, op.tableId, db, calls[..|calls| - 1]).value;
                 && ins(prev, op.tid, op.tableId, calls[|calls| - 1]).Failure?
                 && ins(prev, op.tid, op.tableId, calls[|calls| - 1]).error.0 == db'
                 && r.error == OpErrorOf(ins(prev, op.tid, op.tableId, calls[|calls| - 1]).error.1)
    ensures !op.executed && r.Failure? ==>
              InsertAll(ins, op.tid, op.tableId, db, op.child.tuples[op.child.pos..]).Failure?
              && InsertAll(ins, op.tid, op.tableId, db, op.child.tuples[op.child.pos..]).error.0 == db'
  {
    if op.executed {
      return op, db, [], Success(None);
    }
    var rest := op.child.tuples[op.child.pos..];
    var count := 0;
    var child := op.child;
    db' := db;
    calls := [];
    while child.pos < |child.tuples|
      invariant op.child.pos <= child.pos <= |child.tuples| && child.tuples == op.child.tuples
      invariant calls == op.child.tuples[op.child.pos .. child.pos]
      invariant calls == rest[..|calls|]
      invariant count == |calls|
      invariant InsertAll(ins, op.tid, op.tableId, db, calls) == Success(db')
    {
      var t := child.tuples[child.pos];
      child := child.(pos := child.pos + 1);
      var before := calls;
      calls := calls + [t];
      assert calls[..|calls| - 1] == before;
      match ins(db', op.tid, op.tableId, t) {
        case Failure(fe) =>
          assert calls == rest[..|calls|];
          assert InsertAll(ins, op.tid, op.tableId, db, calls) == Failure(fe);
          InsertAllPrefixFails(ins, op.tid, op.tableId, db, rest, |calls|);
          op' := op.(child := child);
          db' := fe.0;
          r := Failure(OpErrorOf(fe.1));
          return;
        case Success(d) =>
          assert InsertAll(ins, op.tid, op.tableId, db, calls) == Success(d);
          db' := d;
      }
      count := count + 1;
    }
    assert calls == rest;
    op' := op.(child := child, executed := true);
    r := Success(Some(CountTuple(count)));
  }

  /** `rewind`: rewind the child only; whether the Insert has run is kept. */
  function Rewind(op: Insert): (op': Insert)
    ensures ValidChild(op'.child) && op'.child.pos == 0 && op'.child.tuples == op.child.tuples
    ensures op'.executed == op.executed && op'.tid == op.tid && op'.tableId == op.tableId
  {
    op.(child := op.child.(pos := 0))
  }

  /**
   * Run, rewind, run again: when the first call succeeds, the second returns nothing
   * and inserts nothing, even though the child was rewound.
   */
  method RunRewindRun<D>(op: Insert, db: D, ins: (D, int, int, Tuple) -> Result<D, (D, InsertError)>)
    returns (first: Result<Option<Tuple>, OpError>, second: Result<Option<Tuple>, OpError>,
             secondCalls: seq<Tuple>, db': D)
    requires ValidChild(op.child) && !op.executed
    ensures first.Success? ==> first.value.Some? && second == Success(None) && secondCalls == []
    ensures first.Success? ==>
              InsertAll(ins, op.tid, op.tableId, db, op.child.tuples[op.child.pos..]) == Success(db')
  {
    var op1, db1, calls1, r1 := FetchNext(op, db, ins);
    first := r1;
    if r1.Success? {
      assert calls1 == op.child.tuples[op.child.pos..];
    }
    var op2 := Rewind(op1);
    var op3, calls2;
    op3, db', calls2, second := FetchNext(op2, db1, ins);
    secondCalls := calls2;
  }
}

=== FILE: integer_aggregator.dfy ===
/**
 * Grouped integer aggregation (IntegerAggregator).
 *
 * Groups live in an insertion-ordered map from group key to accumulator; without
 * grouping every tuple goes to the one `EmptyField` key.
 */
module IntegerAggregation {
  import opened Wrappers
  import opened Fields
  import opened Storage
  import opened AggResults

  /** The group-by index that means "no grouping". */
  const NoGrouping: int := -1

  /**
   * The groups: keys in order of first appearance (the map's insertion order) and
   * each key's accumulator.
   */
  datatype Groups = Groups(keys: seq<Field>, accs: map<Field, Acc>)

  /** Keys are distinct and are exactly the keys of the map. */
  predicate ValidGroups(g: Groups) {
    && (forall i, j :: 0 <= i < j < |g.keys| ==> g.keys[i] != g.keys[j])
    && (forall k :: k in g.accs ==> k in g.keys)
    && (forall k :: k in g.keys ==> k in g.accs)
  }

  const NoGroups: Groups := Groups([], map[])

  /**
   * `computeIfAbsent(key, new AggResult).merge(v)`: merge into the key's accumulator,
   * creating it (and appending the key) on first sight. No other group changes.
   */
  function MergeIntoGroup(g: Groups, op: AggOp, key: Field, v: int): (r: Groups)
    requires ValidGroups(g)
    ensures ValidGroups(r)
    ensures key in r.accs && r.accs[key] == Merge(op, if key in g.accs then g.accs[key] else Fresh, v)
    ensures forall k :: k in g.accs && k != key ==> k in r.accs && r.accs[k] == g.accs[k]
    ensures r.keys == if key in g.accs then g.keys else g.keys + [key]
    ensures r.accs.Keys == g.accs.Keys + {key}
  {
    if key in g.accs then Groups(g.keys, g.accs[key := Merge(op, g.accs[key], v)])
    else Groups(g.keys + [key], g.accs[key := Merge(op, Fresh, v)])
  }

  /** The groups after merging `(key, value)` items in order into no groups. */
  function MergeItems(op: AggOp, items: seq<(Field, int)>): (g: Groups)
    ensures ValidGroups(g)
  {
    if |items| == 0 then NoGroups
    else
      var last := items[|items| - 1];
      MergeIntoGroup(MergeItems(op, items[..|items| - 1]), op, last.0, last.1)
  }

  /** The values of the items whose key is `k`, in item order. */
  function ValuesFor(items: seq<(Field, int)>, k: Field): seq<int>
  {
    if |items| == 0 then []
    else
      var last := items[|items| - 1];
      ValuesFor(items[..|items| - 1], k) + (if last.0 == k then [last.1] else [])
  }

  predicate HasKey(items: seq<(Field, int)>, k: Field) {
    exists p :: 0 <= p < |items| && items[p].0 == k
  }

  /** `a` occurs among the items before any occurrence of `b`. */
  predicate AppearsBefore(items: seq<(Field, int)>, a: Field, b: Field) {
    exists p :: 0 <= p < |items| && items[p].0 == a && forall q :: 0 <= q <= p ==> items[q].0 != b
  }

  lemma {:induction false} NoKeyNoValues(items: seq<(Field, int)>, k: Field)
    requires !HasKey(items, k)
    ensures ValuesFor(items, k) == []
  {
    if |items| > 0 {
      var init := items[..|items| - 1];
      assert !HasKey(init, k) by {
        forall p | 0 <= p < |init|
          ensures init[p].0 != k
        {
          assert init[p] == items[p];
        }
      }
      NoKeyNoValues(init, k);
    }
  }

  /** A key occurs among the items iff it occurs before the last one or is the last one's. */
  lemma HasKeySnoc(items: seq<(Field, int)>, k: Field)
    requires |items| > 0
    ensures HasKey(items, k) <==> HasKey(items[..|items| - 1], k) || items[|items| - 1].0 == k
  {
    var init := items[..|items| - 1];
    if HasKey(init, k) {
      var p :| 0 <= p < |init| && init[p].0 == k;
      assert items[p].0 == k;
    }
    if HasKey(items, k) && items[|items| - 1].0 != k {
      var p :| 0 <= p < |items| && items[p].0 == k;
      assert init[p].0 == k;
    }
  }

  /** A key has a group iff it occurs among the merged items. */
  lemma {:induction false} GroupKeyOfItems(op: AggOp, items: seq<(Field, int)>, k: Field)
    ensures k in MergeItems(op, items).accs <==> HasKey(items, k)
  {
    if |items| > 0 {
      var init := items[..|items| - 1];
      var last := items[|items| - 1];
      GroupKeyOfItems(op, init, k);
      HasKeySnoc(items, k);
      assert MergeItems(op, items) == MergeIntoGroup(MergeItems(op, init), op, last.0, last.1);
    }
  }

  /** The groups formed by merging items are one per distinct key of the items. */
  lemma GroupKeysOfItems(op: AggOp, items: seq<(Field, int)>)
    ensures forall k :: k in MergeItems(op, items).accs <==> HasKey(items, k)
  {
    forall k
      ensures k in MergeItems(op, items).accs <==> HasKey(items, k)
    {
      GroupKeyOfItems(op, items, k);
    }
  }

  /** The accumulator of key `k`, or a fresh one when `k` has no group. */
  function AccFor(g: Groups, k: Field): Acc {
    if k in g.accs then g.accs[k] else Fresh
  }

  /** The accumulator of one key is the merge of exactly that key's values, in item order. */
  lemma {:induction false} GroupAccOfKey(op: AggOp, items: seq<(Field, int)>, k: Field)
    ensures AccFor(MergeItems(op, items), k) == MergeValues(op, ValuesFor(items, k))
  {
    if |items| > 0 {
      var init := items[..|items| - 1];
      var last := items[|items| - 1];
      GroupAccOfKey(op, init, k);
      var g0 := MergeItems(op, init);
      var g := MergeIntoGroup(g0, op, last.0, last.1);
      assert MergeItems(op, items) == g;
      if k == last.0 {
        var vs := ValuesFor(items, k);
        assert vs[..|vs| - 1] == ValuesFor(init, k) && vs[|vs| - 1] == last.1;
        assert AccFor(g, k) == Merge(op, AccFor(g0, k), last.1);
      } else {
        assert ValuesFor(items, k) == ValuesFor(init, k);
        assert AccFor(g, k) == AccFor(g0, k);
      }
    }
  }

  /** Each group's accumulator is the merge of exactly its own values, in item order. */
  lemma GroupAccsOfItems(op: AggOp, items: seq<(Field, int)>)
    ensures forall k :: k in MergeItems(op, items).accs ==>
              MergeItems(op, items).accs[k] == MergeValues(op, ValuesFor(items, k))
  {
    forall k | k in MergeItems(op, items).accs
      ensures MergeItems(op, items).accs[k] == MergeValues(op, ValuesFor(items, k))
    {
      GroupAccOfKey(op, items, k);
      assert AccFor(MergeItems(op, items), k) == MergeItems(op, items).accs[k];
    }
  }

  /** An order between keys seen among a prefix of the items still holds for all of them. */
  lemma AppearsBeforeSnoc(items: seq<(Field, int)>, a: Field, b: Field)
    requires |items| > 0
    requires AppearsBefore(items[..|items| - 1], a, b)
    ensures AppearsBefore(items, a, b)
  {
    var init := items[..|items| - 1];
    var p :| 0 <= p < |init| && init[p].0 == a && forall q :: 0 <= q <= p ==> init[q].0 != b;
    assert items[p].0 == a;
    forall q | 0 <= q <= p
      ensures items[q].0 != b
    {
      assert items[q] == init[q];
    }
  }

  /** A key seen among a prefix of the items comes before one the prefix never mentions. */
  lemma SeenBeforeUnseen(items: seq<(Field, int)>, a: Field, b: Field)
    requires |items| > 0
    requires HasKey(items[..|items| - 1], a) && !HasKey(items[..|items| - 1], b)
    ensures AppearsBefore(items, a, b)
  {
    var init := items[..|items| - 1];
    var p :| 0 <= p < |init| && init[p].0 == a;
    assert items[p].0 == a;
    forall q | 0 <= q <= p
      ensures items[q].0 != b
    {
      assert items[q] == init[q];
    }
  }

  /** Of two group keys, the one listed first appears first among the items. */
  lemma {:induction false} KeyOrderOfItems(op: AggOp, items: seq<(Field, int)>, i: int, j: int)
    requires 0 <= i < j < |MergeItems(op, items).keys|
    ensures AppearsBefore(items, MergeItems(op, items).keys[i], MergeItems(op, items).keys[j])
  {
    var init := items[..|items| - 1];
    var last := items[|items| - 1];
    var g0 := MergeItems(op, init);
    var ks := MergeItems(op, items).keys;
    assert MergeItems(op, items) == MergeIntoGroup(g0, op, last.0, last.1);
    if j < |g0.keys| {
      KeyOrderOfItems(op, init, i, j);
      assert ks[i] == g0.keys[i] && ks[j] == g0.keys[j];
      AppearsBeforeSnoc(items, ks[i], ks[j]);
    } else {
      assert ks[j] == last.0 && ks[j] !in g0.accs && ks[i] == g0.keys[i];
      GroupKeyOfItems(op, init, ks[i]);
      GroupKeyOfItems(op, init, ks[j]);
      SeenBeforeUnseen(items, ks[i], ks[j]);
    }
  }

  /** The group keys are in order of each key's first appearance among the items. */
  lemma GroupOrderOfItems(op: AggOp, items: seq<(Field, int)>)
    ensures forall i, j :: 0 <= i < j < |MergeItems(op, items).keys| ==>
              AppearsBefore(items, MergeItems(op, items).keys[i], MergeItems(op, items).keys[j])
  {
    forall i, j | 0 <= i < j < |MergeItems(op, items).keys|
      ensures AppearsBefore(items, MergeItems(op, items).keys[i], MergeItems(op, items).keys[j])
    {
      KeyOrderOfItems(op, items, i, j);
    }
  }

  /** The failures of `mergeTupleIntoGroup`: a field index outside the tuple, or a non-integer aggregate field. */
  datatype AggError = FieldIndexOutOfRange(index: int) | NotAnIntField(index: int)

  /**
   * The aggregator: group-by field index (or `NoGrouping`), its type, the aggregate
   * field index, the operator, and the groups.
   */
  datatype Aggregator = Aggregator(gbField: int, gbType: Type, aField: int, what: AggOp, groups: Groups)

  /** The invariant the aggregator keeps: valid groups, and at most the sentinel key without grouping. */
  predicate AggInv(a: Aggregator) {
    && ValidGroups(a.groups)
    && (a.gbField == NoGrouping ==> a.groups.keys == [] || a.groups.keys == [EmptyField])
  }

  /** The constructor: no groups yet. */
  function NewAggregator(gbField: int, gbType: Type, aField: int, what: AggOp): (a: Aggregator)
    ensures AggInv(a) && a.groups.keys == []
  {
    Aggregator(gbField, gbType, aField, what, NoGroups)
  }

  /** The output schema chosen by the constructor: `(gbType, INT)` when grouping, `(INT)` otherwise. */
  function ResultSchema(a: Aggregator): (td: seq<Type>)
    ensures |td| == if a.gbField == NoGrouping then 1 else 2
    ensures td[|td| - 1] == IntType
    ensures a.gbField != NoGrouping ==> td[0] == a.gbType
  {
    if a.gbField != NoGrouping then [a.gbType, IntType] else [IntType]
  }

  /** Field `i` of a tuple, or the out-of-range failure. */
  function GetField(tup: Tuple, i: int): (r: Result<Field, AggError>)
    ensures r.Success? <==> 0 <= i < |tup.fields|
    ensures r.Success? ==> r.value == tup.fields[i]
  {
    if 0 <= i < |tup.fields| then Success(tup.fields[i]) else Failure(FieldIndexOutOfRange(i))
  }

  /** The group key of a tuple: its group-by field, or the sentinel without grouping. */
  function GroupKey(a: Aggregator, tup: Tuple): (r: Result<Field, AggError>)
    ensures a.gbField == NoGrouping ==> r == Success(EmptyField)
    ensures a.gbField != NoGrouping ==> r == GetField(tup, a.gbField)
  {
    if a.gbField != NoGrouping then GetField(tup, a.gbField) else Success(EmptyField)
  }

  /** The aggregate value of a tuple: its aggregate field, which must be an integer field. */
  function AggValue(a: Aggregator, tup: Tuple): (r: Result<int, AggError>)
    ensures r.Success? <==> 0 <= a.aField < |tup.fields| && tup.fields[a.aField].IntField?
    ensures r.Success? ==> r.value == tup.fields[a.aField].n
  {
    var f :- GetField(tup, a.aField);
    if f.IntField? then Success(f.n) else Failure(NotAnIntField(a.aField))
  }

  /**
   * `mergeTupleIntoGroup`: find the tuple's key and value, then merge the value into
   * that key's group. Only that group changes; the invariant is kept.
   */
  function MergeTuple(a: Aggregator, tup: Tuple): (r: Result<Aggregator, AggError>)
    requires AggInv(a)
    ensures r.Success? <==> GroupKey(a, tup).Success? && AggValue(a, tup).Success?
    ensures r.Success? ==>
              && AggInv(r.value)
              && r.value.(groups := a.groups) == a
              && r.value == a.(groups := MergeIntoGroup(a.groups, a.what, GroupKey(a, tup).value, AggValue(a, tup).value))
  {
    var key :- GroupKey(a, tup);
    var v :- AggValue(a, tup);
    Success(a.(groups := MergeIntoGroup(a.groups, a.what, key, v)))
  }

  /** Merge tuples in order, stopping at the first that fails. */
  function MergeTuples(a: Aggregator, tups: seq<Tuple>): (r: Result<Aggregator, AggError>)
    requires AggInv(a)
    ensures r.Success? ==> AggInv(r.value) && r.value.(groups := a.groups) == a
  {
    if |tups| == 0 then Success(a)
    else
      var a' :- MergeTuples(a, tups[..|tups| - 1]);
      MergeTuple(a', tups[|tups| - 1])
  }

  /** Every tuple has a group key and an integer aggregate value. */
  predicate AllMergeable(a: Aggregator, tups: seq<Tuple>) {
    forall i :: 0 <= i < |tups| ==> GroupKey(a, tups[i]).Success? && AggValue(a, tups[i]).Success?
  }

  /** A run of tuples is mergeable iff its prefix is and its last tuple has a key and an integer value. */
  lemma AllMergeableSnoc(a: Aggregator, tups: seq<Tuple>)
    requires |tups| > 0
    ensures AllMergeable(a, tups) <==>
              && AllMergeable(a, tups[..|tups| - 1])
              && GroupKey(a, tups[|tups| - 1]).Success?
              && AggValue(a, tups[|tups| - 1]).Success?
  {
    var init := tups[..|tups| - 1];
    assert forall i :: 0 <= i < |init| ==> init[i] == tups[i];
  }

  /** The `(key, value)` item each tuple contributes, in tuple order. */
  function Items(a: Aggregator, tups: seq<Tuple>): (items: seq<(Field, int)>)
    requires AllMergeable(a, tups)
    ensures |items| == |tups|
    ensures forall i :: 0 <= i < |tups| ==> items[i] == (GroupKey(a, tups[i]).value, AggValue(a, tups[i]).value)
  {
    if |tups| == 0 then []
    else
      AllMergeableSnoc(a, tups);
      var last := tups[|tups| - 1];
      Items(a, tups[..|tups| - 1]) + [(GroupKey(a, last).value, AggValue(a, last).value)]
  }

  /** Merging tuples fails iff some tuple lacks a key or an integer value. */
  lemma {:induction false} MergeTuplesSucceeds(a: Aggregator, tups: seq<Tuple>)
    requires AggInv(a)
    ensures MergeTuples(a, tups).Success? <==> AllMergeable(a, tups)
  {
    if |tups| > 0 {
      var last := tups[|tups| - 1];
      MergeTuplesSucceeds(a, tups[..|tups| - 1]);
      AllMergeableSnoc(a, tups);
      var r := MergeTuples(a, tups[..|tups| - 1]);
      if r.Success? {
        assert GroupKey(r.value, last) == GroupKey(a, last);
        assert AggValue(r.value, last) == AggValue(a, last);
      }
    }
  }

  /**
   * Merging tuples into a new aggregator leaves its configuration alone and gives
   * exactly the groups of the tuples' items.
   */
  lemma {:induction false} MergeTuplesGroups(a: Aggregator, tups: seq<Tuple>)
    requires AggInv(a) && a.groups == NoGroups
    requires AllMergeable(a, tups)
    ensures MergeTuples(a, tups).Success?
    ensures MergeTuples(a, tups).value == a.(groups := MergeItems(a.what, Items(a, tups)))
  {
    MergeTuplesSucceeds(a, tups);
    if |tups| > 0 {
      AllMergeableSnoc(a, tups);
      MergeTuplesGroups(a, tups[..|tups| - 1]);
      MergeTuplesGroupsStep(a, tups);
    }
  }

  /** One more tuple merges its item into the groups of the tuples before it. */
  lemma MergeTuplesGroupsStep(a: Aggregator, tups: seq<Tuple>)
    requires AggInv(a) && |tups| > 0 && AllMergeable(a, tups)
    ensures AllMergeable(a, tups[..|tups| - 1])
    ensures MergeTuples(a, tups[..|tups| - 1]) == Success(a.(groups := MergeItems(a.what, Items(a, tups[..|tups| - 1])))) ==>
              MergeTuples(a, tups) == Success(a.(groups := MergeItems(a.what, Items(a, tups))))
  {
    AllMergeableSnoc(a, tups);
    var init := tups[..|tups| - 1];
    var last := tups[|tups| - 1];
    var items := Items(a, tups);
    var key := GroupKey(a, last).value;
    var v := AggValue(a, last).value;
    assert items == Items(a, init) + [(key, v)];
    assert items[..|tups| - 1] == Items(a, init);
    if MergeTuples(a, init) != Success(a.(groups := MergeItems(a.what, Items(a, init)))) {
      return;
    }
    var a' := MergeTuples(a, init).value;
    assert GroupKey(a', last) == GroupKey(a, last) && AggValue(a', last) == AggValue(a, last);
    assert MergeTuples(a, tups) == MergeTuple(a', last);
    assert MergeTuple(a', last) == Success(a'.(groups := MergeIntoGroup(a'.groups, a.what, key, v)));
    assert MergeItems(a.what, items) == MergeIntoGroup(MergeItems(a.what, Items(a, init)), a.what, key, v);
  }

  /** The result tuple of one group: the key when grouping, then the integer result. */
  function ResultTuple(a: Aggregator, key: Field, acc: Acc): (t: Tuple)
    ensures t.td == ResultSchema(a) && |t.fields| == |ResultSchema(a)| && t.rid.None?
    ensures t.fields[|t.fields| - 1] == IntField(IntResult(a.what, acc))
    ensures a.gbField != NoGrouping ==> t.fields[0] == key
  {
    if a.gbField != NoGrouping then Tuple(ResultSchema(a), [key, IntField(IntResult(a.what, acc))], None)
    else Tuple(ResultSchema(a), [IntField(IntResult(a.what, acc))], None)
  }

  /**
   * `iterator`: one tuple per group in key order, each with the output schema; the
   * last field is the group's integer result, preceded by the key when grouping.
   */
  function Results(a: Aggregator): (ts: seq<Tuple>)
    requires ValidGroups(a.groups)
    ensures |ts| == |a.groups.keys|
    ensures forall i :: 0 <= i < |ts| ==> ts[i] == ResultTuple(a, a.groups.keys[i], a.groups.accs[a.groups.keys[i]])
  {
    seq(|a.groups.keys|, i requires 0 <= i < |a.groups.keys| =>
      ResultTuple(a, a.groups.keys[i], a.groups.accs[a.groups.keys[i]]))
  }

  /** Without grouping the iterator yields at most one tuple; with no merges it yields none. */
  lemma ResultsCardinality(a: Aggregator)
    requires AggInv(a)
    ensures a.gbField == NoGrouping ==> |Results(a)| <= 1
    ensures a.groups == NoGroups ==> Results(a) == []
  {
  }

  /**
   * Aggregating tuples with a new aggregator yields one result per distinct key, in
   * order of first appearance, whose value is the aggregate of that key's values.
   */
  lemma AggregateTuples(a: Aggregator, tups: seq<Tuple>)
    requires AggInv(a) && a.groups == NoGroups
    requires AllMergeable(a, tups)
    ensures MergeTuples(a, tups).Success?
    ensures var g := MergeTuples(a, tups).value.groups;
            && (forall k :: k in g.accs <==> HasKey(Items(a, tups), k))
            && (forall i, j :: 0 <= i < j < |g.keys| ==> AppearsBefore(Items(a, tups), g.keys[i], g.keys[j]))
            && (forall i :: 0 <= i < |g.keys| ==>
                  Results(MergeTuples(a, tups).value)[i] ==
                  ResultTuple(a, g.keys[i], MergeValues(a.what, ValuesFor(Items(a, tups), g.keys[i]))))
  {
    MergeTuplesGroups(a, tups);
    GroupKeysOfItems(a.what, Items(a, tups));
    GroupAccsOfItems(a.what, Items(a, tups));
    GroupOrderOfItems(a.what, Items(a, tups));
  }

  /**
   * For a COUNT aggregate, each group's result is the number of tuples with that
   * group's key.
   */
  lemma CountPerGroup(a: Aggregator, tups: seq<Tuple>, k: Field)
    requires AggInv(a) && a.groups == NoGroups && a.what == Count
    requires AllMergeable(a, tups)
    ensures MergeTuples(a, tups).Success?
    ensures k in MergeTuples(a, tups).value.groups.accs ==>
              IntResult(Count, MergeTuples(a, tups).value.groups.accs[k]) == |ValuesFor(Items(a, tups), k)|
  {
    MergeTuplesGroups(a, tups);
    GroupAccsOfItems(Count, Items(a, tups));
    CountIsNumberMerged(Count, ValuesFor(Items(a, tups), k));
  }
}

=== FILE: ints.dfy ===
/** Integer helpers shared by the page layout and the aggregate accumulators. */
module Ints {
  function Min(a: int, b: int): (r: int)
    ensures r <= a && r <= b && (r == a || r == b)
  {
    if a <= b then a else b
  }

  function Max(a: int, b: int): (r: int)
    ensures r >= a && r >= b && (r == a || r == b)
  {
    if a >= b then a else b
  }
}

=== FILE: storage.dfy ===
/**
 * Identifiers, tuples and the errors shared by the heap-file layer
 * (HeapPageId, RecordId, Tuple, Permissions, DbException).
 */
module Storage {
  import opened Wrappers
  import opened Fields

  /** A page of a table: the table id and the page number inside the table's file. */
  datatype PageId = PageId(tableId: int, pgNo: nat)

  /** A tuple's physical address: its page and the slot inside that page. */
  datatype RecordId = RecordId(pid: PageId, slot: nat)

  /** A tuple: its schema's field types, its fields, and where it is stored (if it is). */
  datatype Tuple = Tuple(td: seq<Type>, fields: seq<Field>, rid: Option<RecordId>)

  /** The access a transaction asks the buffer pool for. */
  datatype Permission = ReadOnly | ReadWrite

  /** One `BufferPool.getPage` request. */
  datatype PageRequest = PageRequest(pid: PageId, perm: Permission)

  /** The failures of the storage layer. */
  datatype DbError =
    | TableIdMismatch(fileId: int, tupleTableId: int)  // deleteTuple on another table's tuple
    | NoRecordId                                       // a tuple that was never stored
    | PageNotFound(pgNo: nat)                          // getPage beyond the end of the file
    | SchemaMismatch                                   // page insert of a tuple of another schema
    | NoEmptySlot                                      // page insert into a full page
    | NotOnThisPage(pid: PageId)                       // page delete of a tuple stored elsewhere
    | SlotNotUsed(slot: nat)                           // page delete of a free or missing slot
}

=== FILE: wrappers.dfy ===
/** Failure-compatible result types shared by every module of the model. */
module Wrappers {

  /** An optional value; `None` stands for Java's `null`. */
  datatype Option<+T> = None | Some(value: T)

  /** Either a value or the exception an operation throws. */
  datatype Result<+T, +E> = Success(value: T) | Failure(error: E) {
    predicate IsFailure() {
      Failure?
    }

    function PropagateFailure<U>(): Result<U, E>
      requires Failure?
    {
      Failure(error)
    }

    function Extract(): T
      requires Success?
    {
      value
    }
  }
}
